=== FILE: README.md ===
# opencode-bot bridge core in Dafny

This project models the part of opencode-bot that sits between a chat and the `opencode` CLI. It has two layers.

**`BridgeCore`** (src/core/bridge.js) owns two pieces of state:
- the session map, which gives each chat an opencode session id;
- the registry of live CLI processes, with one per chat.

It exposes these operations:
- `getSession`, `createSession` and `listSessions`;
- `setModel`, `setAgent` and `listAgents`;
- `stopProcess`;
- `execute`, which builds the argument vector `run <prompt> [--model m] [--agent a] [--session s]`;
- `runCommand`, which runs one bare word.

Both `execute` and `runCommand` go through `_spawn`. `_spawn` does the following:
- it kills the chat's previous process and registers the new one;
- it appends every output chunk to a buffer;
- it streams `_format` of the whole buffer to the adapter;
- it resolves with the raw buffer on exit;
- it arms a 600000 ms watchdog that kills the process only if it is still the chat's registered one.

**The Telegram adapter** (src/adapters/telegram.js) does the following:
- it decodes callback data such as `nav:models`, `model:<id>`, `agent:<id>`, `sess:<id>`, `act:new` and `cmd:<tool>` by prefix;
- it draws the five menu pages;
- it turns a text message into an `execute` call, after trimming it and dropping slash commands;
- it shows output in a fenced code block, keeping the last 3500 characters of a stream and the first 3500 of a command's result.

The modules follow that structure:

| module | file | what it holds |
|---|---|---|
| `Wrappers` | wrappers.dfy | `Option`, and JavaScript truthiness of an optional string (`Truthy`, `Or` for `a \|\| b`) |
| `Strings` | strings.dfy | the JavaScript string operations the code uses: `startsWith`, `endsWith`, `replace`, `split`, `slice`, `trim`, `toString(36)`, and UTF-16 length |
| `Format` | format.dfy | `_format`: the ANSI regular expression matched exactly as the regex engine does, then the `\r`, `INFO`, `WARN` and `ERROR` rewrites |
| `Sessions` | sessions.dfy | the session map, fallback ids, fresh ids, session files, and `listSessions` |
| `Supervisor` | supervisor.dfy | the process registry as a state machine, with effects |
| `Bridge` | bridge.dfy | configuration, `listAgents`, the argument vector and its parser, `execute`, `runCommand` |
| `Telegram` | telegram.dfy | callback routing, menus, message handling, and message text |

The environment becomes explicit input:
- **Clock and randomness:** `Date.now()`, `Math.random()` and `process.cwd()` are a `Stamp` record. It has three clock readings, because `createSession` reads the clock three times, plus the random digits and the working directory.
- **Session directory:** it is a sequence of `(name, mtime)` entries, or `None` when it cannot be read.
- **pty process:** `Supervisor` receives its events (spawn, data, exit, watchdog, stop). Each transition returns the effects `_spawn` performs: kill a handle, stream a text to the adapter, or resolve a promise.
- **Handles:** a process handle is a number that is never reused. `activeProcesses.get(chatId) === ptyProcess` becomes a comparison of handles.

## Model

| member | source | states |
|---|---|---|
| Sessions.GetSession | src/core/bridge.js:87-89 | the mapped id when it is non-empty, otherwise `ses_tg_` followed by the chat id's ASCII letters and digits; never empty |
| Sessions.FallbackSession | src/core/bridge.js:88 | the fallback id starts with `ses_tg_` and the rest is alphanumeric |
| Sessions.FallbackKeepsAlnumChat | src/core/bridge.js:88 | a chat id that is already alphanumeric is kept whole in its fallback |
| Sessions.KeepAlnum | src/core/bridge.js:88 | the result has only ASCII letters and digits, and an all-alphanumeric input comes back unchanged |
| Sessions.KeepAlnumKeeps | src/core/bridge.js:88 | stripping non-alphanumerics keeps every letter and digit with its multiplicity |
| Sessions.KeepAlnumAppend | src/core/bridge.js:88 | the global replace keeps order: the kept characters of `a + b` are those of `a` followed by those of `b` |
| Sessions.KeepAlnumChar | src/core/bridge.js:88 | one character is kept iff it is an ASCII letter or digit, so together with `KeepAlnumAppend` the result is the chat id's letters and digits in their order |
| Sessions.FallbackAppend | src/core/bridge.js:88 | the fallback id follows the chat id left to right: extending the chat id appends the extension's letters and digits |
| Sessions.FallbackNotInjective | src/core/bridge.js:88 | chats `-1001` and `1001` share the fallback `ses_tg_1001` |
| Sessions.NewSessionId | src/core/bridge.js:66 | the id starts with `ses_` and ends with `_` followed by the random part; `SessionIdRoundTrip` and `SessionIdInjective` show it determines the clock value and the random part |
| Sessions.SessionIdRoundTrip | src/core/bridge.js:66 | `ses_<time in base 36>_<5 random digits>` parses back to the time and digits it was made from |
| Sessions.SessionIdInjective | src/core/bridge.js:66 | distinct (time, digits) pairs give distinct ids |
| Sessions.FreshIdIsNotFallback | src/core/bridge.js:66-88 | once the clock has at least three base-36 digits, a fresh id never equals a fallback id |
| Sessions.FreshIdCanLookLikeFallback | src/core/bridge.js:66-88 | a tiny clock value (1060 = `tg`) makes a fresh id equal to a fallback id |
| Sessions.Decimal | src/core/bridge.js:74 | the slug's decimal digits read back as the clock value |
| Sessions.CreateSession | src/core/bridge.js:65-85 | returns the fresh id; maps this chat to it and no other chat changes; writes `<id>.json` with the record's id, title, project, directory, timestamps, empty messages and slug; no other file changes |
| Strings.RadixRoundTrip | src/core/bridge.js:66 | `toString(36)` read back in base 36 gives the number |
| Sessions.SessionNames | src/core/bridge.js:93-95 | every listed name starts with `ses_`, and there are no more names than entries |
| Sessions.SessionNamesMembers | src/core/bridge.js:93-95 | a name is listed iff some directory entry starting with `ses_` and ending with `.json` produces it |
| Sessions.SessionNamesAppend | src/core/bridge.js:93-95 | `filter` and `map` keep directory order and multiplicity: the names of `a + b` are those of `a` followed by those of `b` |
| Sessions.SessionNamesOne | src/core/bridge.js:93-95 | one entry yields its name with the first `.json` removed exactly when it starts with `ses_` and ends with `.json` |
| Sessions.ReplaceKeepsPrefix | src/core/bridge.js:94-95 | removing the first `.json` keeps the `ses_` prefix |
| Sessions.MTime | src/core/bridge.js:97-98 | a stat gives the entry's time exactly when an entry of that name exists |
| Sessions.ListSessions | src/core/bridge.js:91-102 | an unreadable directory gives `[]`; so do two or more names when one of them cannot be stat'ed; zero or one name is returned as is, never stat'ed |
| Sessions.ListSessionsOnlySessions | src/core/bridge.js:93-95 | every listed session starts with `ses_` |
| Sessions.ListSessionsSorted | src/core/bridge.js:96-100 | when every name can be stat'ed, the result is a permutation of the names, newest first |
| Sessions.SortSorted | src/core/bridge.js:96-100 | the sort is ordered newest first, with equal times kept in directory order |
| Sessions.SortNames | src/core/bridge.js:96-100 | the sort keeps the multiset of names |
| Supervisor.StopProcess | src/core/bridge.js:39-47 | returns true iff the chat had a process; the chat's slot is gone; the only effect is killing that process; other chats are unchanged |
| Supervisor.StopTwice | src/core/bridge.js:39-47 | stopping again returns false and does nothing |
| Supervisor.Spawn | src/core/bridge.js:132-162 | kills the previous process of the chat, if any; registers a fresh handle for the chat only; the new process has an empty buffer and a deadline 600000 ms ahead; every invariant is preserved |
| Supervisor.SpawnReplaces | src/core/bridge.js:134-144 | spawning over a running process kills it and installs a different handle |
| Supervisor.OnData | src/core/bridge.js:148-151 | the process's buffer grows by the chunk, before or after its exit, and it streams `_format` of the whole new buffer when an adapter listens; nothing else changes |
| Supervisor.BufferIsConcatenation | src/core/bridge.js:146-149 | after any event sequence, the buffer is the old buffer plus every chunk of that process, in order, those after its exit included |
| Supervisor.ResolvedOnce | src/core/bridge.js:153-156 | once a process has exited, no later event resolves it again, so the resolved output stays the snapshot taken at the exit |
| Supervisor.LateChunkStreams | src/core/bridge.js:148-156 | a chunk arriving after the exit is appended and streamed, while the promise has already resolved with the buffer as it was at the exit |
| Supervisor.StreamShowsEverything | src/core/bridge.js:146-150 | each streamed text is `_format` of all output since the spawn, before or after the exit |
| Supervisor.OnExit | src/core/bridge.js:153-156 | deletes the chat's slot whatever it holds, and resolves with the raw buffer and exit code |
| Supervisor.ResolvesWithEverything | src/core/bridge.js:146-156 | the resolved output is exactly the concatenation of the process's chunks |
| Supervisor.ExitDeletesUnconditionally | src/core/bridge.js:154 | an exit removes its chat's slot and leaves all other chats' slots unchanged |
| Supervisor.StaleExitOrphansReplacement | src/core/bridge.js:132-162 | when a replaced process's exit arrives after its replacement started, the replacement runs on unregistered: `stopProcess` returns false and its watchdog does not kill it |
| Supervisor.OnTimeout | src/core/bridge.js:158-162 | fires once, at or after the deadline; marks the timer as fired and changes nothing else |
| Supervisor.WatchdogChecksIdentity | src/core/bridge.js:158-162 | the watchdog kills a process iff it is due and still the chat's registered process |
| Supervisor.WatchdogFiresOnce | src/core/bridge.js:158-162 | a second firing has no effect |
| Supervisor.Step | src/core/bridge.js:132-162 | every event preserves the registry invariant: registered handles are live processes of that chat |
| Supervisor.Run | src/core/bridge.js:132-162 | a whole event sequence preserves the registry invariant |
| Supervisor.NoExitKeepsRunning | src/core/bridge.js:153-156 | a process with no exit event among the events is still live, with its chat and listener |
| Bridge.SetModel | src/core/bridge.js:49-52 | sets the default model; nothing else changes |
| Bridge.SetAgent | src/core/bridge.js:54-57 | sets the default agent, or clears it for `null`; nothing else changes |
| Bridge.ListAgents | src/core/bridge.js:59-63 | lists only enabled agents, and no more than there are entries |
| Bridge.ListAgentsMembers | src/core/bridge.js:59-63 | an agent is listed iff some enabled entry produces it, with its key as id |
| Bridge.ListAgentsAppend | src/core/bridge.js:59-63 | the listing keeps entry order (it distributes over concatenation) |
| Bridge.RunArgs | src/core/bridge.js:108 | the argument vector begins with `run` and the prompt |
| Bridge.TakeFlag | src/core/bridge.js:110-123 | taking a flag off an argument vector returns its value and the exact rest |
| Bridge.ParseRunArgsInverse | src/core/bridge.js:108-123 | parsing the built vector gives back the request, with falsy model and agent dropped |
| Bridge.RunArgsInverse | src/core/bridge.js:108-123 | every vector that parses is exactly the one built from what it parses to |
| Bridge.ResolveSession | src/core/bridge.js:105 | the option's session id when truthy, otherwise `getSession`; never empty |
| Bridge.PlanRun | src/core/bridge.js:105-122 | the request carries the prompt; its session is the resolved id, absent exactly when the file is missing and `createIfMissing` is `false`; the store is unchanged or extended by `createSession`, and no file disappears |
| Bridge.Execute | src/core/bridge.js:104-126 | spawns the built vector for the chat with an empty buffer and a 600000 ms deadline, in the chat's slot, killing the previous process; every other chat's slot and every existing process stay as they were; the configuration is unchanged |
| Bridge.ExecuteArgs | src/core/bridge.js:108-116 | `--model` is present iff the option or the default is truthy, and carries the option first; likewise `--agent` |
| Bridge.ExecuteSessionArg | src/core/bridge.js:118-123 | an existing session file gives `--session` and no write; a missing one with `createIfMissing: false` gives no `--session`; otherwise a session is created and `--session` is passed |
| Bridge.ExecutePassesOldId | src/core/bridge.js:105-123 | when a session is created, `--session` carries the id resolved before creation, while the chat now maps to the new id; that id's file exists only if the two ids coincide |
| Bridge.RunCommand | src/core/bridge.js:128-130 | spawns exactly `[command]`, which is never a `run` vector, with an empty buffer and a 600000 ms deadline; every other chat's slot and every existing process stay as they were; session map and configuration are unchanged |
| Format.MatchEndSound | src/core/bridge.js:168 | a match of the ANSI pattern is a control sequence in the pattern's grammar |
| Format.MatchEndComplete | src/core/bridge.js:168 | where no match is found, no slice starting there is a control sequence |
| Format.GroupsEndSound | src/core/bridge.js:168 | the greedy scan of `[0-9]{1,4}(?:;[0-9]{0,4})*` stops on a grammatical prefix |
| Format.StripReturns | src/core/bridge.js:169 | removes every `\r` and keeps every other character with its multiplicity |
| Format.StripFromShortens | src/core/bridge.js:168 | removing control sequences never lengthens the text |
| Format.StripFromPlain | src/core/bridge.js:168 | text without ESC or CSI characters passes the first replace unchanged |
| Format.Format | src/core/bridge.js:166-173 | the five replaces in order; its lemmas `FormatClean`, `FormatShortens`, `FormatPlain`, `FormatNotIdempotent` and `FormatNotMonotone` state what the chain does |
| Format.FormatClean | src/core/bridge.js:166-173 | the output contains no `\r`, `INFO`, `WARN` or `ERROR` |
| Format.FormatShortens | src/core/bridge.js:166-173 | the output is no longer in UTF-16 units than the input |
| Format.FormatPlain | src/core/bridge.js:166-173 | text with nothing to rewrite is returned unchanged |
| Format.FormatNotIdempotent | src/core/bridge.js:168 | formatting twice can remove more than formatting once |
| Format.FormatNotMonotone | src/core/bridge.js:168 | a later snapshot need not extend an earlier one: a trailing character can complete an escape |
| Strings.ReplaceAllRemoves | src/core/bridge.js:170-172 | after a global replace by a non-empty text sharing no character with the pattern, the pattern no longer occurs |
| Strings.SplitJoin | src/adapters/telegram.js:96-116 | joining the fields of `split` with the separator gives back the string |
| Telegram.Decode | src/adapters/telegram.js:95-116 | every routed action is one a button can carry back (colon-free value, an agent not named `null`), and `NewSession` comes only from exactly `act:new` |
| Telegram.Value | src/adapters/telegram.js:96-116 | `data.split(':')[1]` after a prefix `name:` is colon-free and is exactly what follows the prefix, up to the next colon |
| Telegram.DecodeEncode | src/adapters/telegram.js:91-119 | the data of every action, with any `:…` tail, routes back to that action |
| Telegram.EncodeDecode | src/adapters/telegram.js:91-119 | any data that is routed equals, or extends with `:…`, the data of the action it routes to |
| Telegram.DecodeIgnores | src/adapters/telegram.js:91-119 | data is ignored iff it has none of the prefixes `nav:`, `model:`, `agent:`, `sess:`, `cmd:` and is not `act:new` |
| Telegram.DecodeAgent | src/adapters/telegram.js:101-103 | `agent:null` clears the agent, and any other value selects it |
| Telegram.AgentNamedNull | src/adapters/telegram.js:101-103 | an agent whose key is `null` cannot be selected from its button |
| Telegram.DecodeNew | src/adapters/telegram.js:111 | `act:new` is matched exactly |
| Telegram.EncodeActs | src/adapters/telegram.js:91-119 | every action's data is routed |
| Telegram.HandleCallback | src/adapters/telegram.js:91-119 | a callback never changes the pending prompt replies; unrouted data changes nothing; only a `cmd:` callback touches the process registry or the remembered command replies |
| Telegram.CallbackIgnored | src/adapters/telegram.js:91-119 | unrouted data changes nothing and redraws nothing |
| Telegram.ChooseModelShows | src/adapters/telegram.js:97-100 | choosing `provider/name` sets that model, toasts `Model updated`, redraws the main page, and the label shows `name` |
| Telegram.ClearAgentShowsNone | src/adapters/telegram.js:101-105 | `agent:null` clears the agent, toasts `Agent: null`, and the label shows `none` |
| Telegram.SwitchSessionOnlyThisChat | src/adapters/telegram.js:106-110 | `sess:<id>` remaps this chat only, and writes no file; an empty id falls back |
| Telegram.NewSessionButton | src/adapters/telegram.js:111-114 | `act:new` maps the chat to a fresh `ses_` id |
| Telegram.ToolButtonRuns | src/adapters/telegram.js:115-117 | `cmd:<tool>` runs exactly `[tool]` in the chat's slot and remembers the "Running" reply for the result |
| Telegram.NewCommand | src/adapters/telegram.js:25-28 | `/new` maps the chat to a fresh id, with no other chat changed, and replies with that id |
| Telegram.HandleMessage | src/adapters/telegram.js:121-131 | runs iff the trimmed text does not start with `/`, and otherwise changes nothing; a run registers its process under the chat and remembers the reply; configuration and command replies stay |
| Telegram.MessageRunsUnlessSlash | src/adapters/telegram.js:121-131 | a message runs iff its trimmed text does not start with `/`; the run's prompt is the trimmed text, its session is the chat's, and the reply is remembered for streaming |
| Strings.Trim | src/adapters/telegram.js:122 | the result is a slice with only white space cut at either end, and it neither starts nor ends with white space |
| Telegram.OnStreamData | src/adapters/telegram.js:147-154 | edits only when the chat has a pending reply; shows in a fence the last `min(length, 3500)` characters of the text |
| Telegram.CommandResult | src/adapters/telegram.js:137-144 | edits the "Running" reply; shows in a fence the first `min(length, 3500)` characters of the output |
| Telegram.UnfenceFence | src/adapters/telegram.js:151 | the fenced text can be read back exactly |
| Telegram.CommandStreamsIntoPromptReply | src/adapters/telegram.js:147-152 | a tool's stream edits the chat's last prompt reply, not the tool's "Running" reply, and nothing when there is none |
| Telegram.ModelLabel | src/adapters/telegram.js:33 | the label is `default`, or a non-empty slash-free suffix of the model |
| Telegram.ModelLabelOfPath | src/adapters/telegram.js:33 | the label of `provider/name` is `name` |
| Telegram.ModelLabelPlain | src/adapters/telegram.js:33 | a non-empty model without `/` is shown whole |
| Telegram.ModelLabelDefault | src/adapters/telegram.js:33 | no model, an empty model, or one ending in `/` shows `default`, since `pop()` gives the empty last piece and `\|\|` replaces it |
| Strings.SplitLast | src/adapters/telegram.js:33 | the last piece of `split(sep)` ends the string, is free of the separator, and is preceded by the separator whenever it is not the whole string |
| Telegram.AgentLabel | src/adapters/telegram.js:34 | the agent when truthy, otherwise `none` |
| Telegram.SessionButtons | src/adapters/telegram.js:63-71 | at most five sessions, in listing order; each switches to its session; the current one is ticked; labels are cut to 20 characters |
| Telegram.AgentButtons | src/adapters/telegram.js:56-58 | one button per listed agent, named after it, selecting its id |
| Telegram.PageText | src/adapters/telegram.js:32-74 | every known page has a non-empty title and an unknown page has none |
| Telegram.ShowMenu | src/adapters/telegram.js:30-89 | an unknown page name draws nothing, a known one draws a text, and no drawn button is inert |
| Telegram.PageButtons | src/adapters/telegram.js:36-81 | no button of any page is inert |
| Telegram.FixedButtonsDecode | src/adapters/telegram.js:36-81 | every button of the main, models and tools pages routes to its own action |
| Telegram.ListedButtonsDecode | src/adapters/telegram.js:56-72 | an agent or session button whose name has no colon routes to its own action |
| Telegram.ButtonsAct | src/adapters/telegram.js:30-89 | pressing any button of any menu is routed |

## Left out

- **pty:** the terminal size and environment, signals, and a failing `pty.spawn` are left out. The CLI path from `ConfigManager` and the order in which the event loop delivers events are left out too. Any interleaving is a sequence of `Supervisor` events. node-pty reports a process's exit once; a repeated exit event is ignored.
- **Persistence:** `_loadSessionMap`, `_saveSessionMap`, `ConfigManager.save`, and the file system are left out, including write failures. The store is an in-memory map of session files. A session map loaded from disk holding non-string values is not modelled.
- **Clock and randomness:** `Date.now()`, `Math.random()` and `process.cwd()` are a `Stamp` parameter. The random part is any string of at most five base-36 digits, since `substr(2, 5)` of the random number's base-36 form can be shorter.
- **Other code:** the other adapters, `index.js`, `bin/setup.js` and `ConfigManager` are not part of this model. Nor are the grammy routing of `/start` and `/menu`, the keyboard's row layout, `answerCallbackQuery`, the typing action, or failures of `editMessageText`. `/menu` is `ShowMenu` on the main page.
- **`await` ordering in `handleCallback`:** the model applies the state change first and then returns the reaction to draw.
- Telegram.OnStreamData: `slice(-3500)` counts UTF-16 code units, but the model counts characters, so on text with characters outside the Basic Multilingual Plane it keeps a different tail.
- Telegram.CommandResult: `slice(0, 3500)` counts UTF-16 code units, but the model keeps 3500 characters, so on text with characters outside the Basic Multilingual Plane it keeps more.
- Telegram.SessionButtons: each label is cut by `slice(0, 20)` in UTF-16 code units, but the model (Telegram.SessionLabel) cuts 20 characters.
- Telegram.SessionLabel: same approximation as Telegram.SessionButtons.
- Bridge.ListAgents: `config.agents` is a sequence in `Object.entries` order. Integer-like keys, which JavaScript lists first, are not reordered. An entry object that carries its own `id` would override the key in `{ id, ...info }`; that case is not modelled.
- Sessions.GetSession: `this.sessionMap[chatId]` is a plain-object lookup, so a key such as `constructor` would read an inherited value; the model's map has no inherited keys. Telegram chat ids are numeric, so no such key occurs.
- Sessions.ListSessions: the directory listing is a parameter, a snapshot independent of the session map and of the records `CreateSession` writes; no lemma connects a created session to a later listing. The comparator's `statSync` calls are not modelled one by one. A missing stat with two or more names gives `[]`, because any sort compares every element at least once. The result of `b - a` on non-finite times is not modelled.
- Format.MatchEnd: is proved sound and complete with respect to the pattern's grammar. Which of several possible matches the regex engine picks is derived by hand from the pattern, not proved.

## Notes on the code
- **Session argument:** `--session` carries the id resolved before `createSession`; the new id goes only into the map. `Bridge.ExecutePassesOldId` states this.
- **Formatting:** `_format` is neither idempotent nor monotone under extension: `Format.FormatNotIdempotent` and `Format.FormatNotMonotone` exhibit inputs.

=== FILE: bridge.dfy ===
/**
 * The façade of `BridgeCore` (src/core/bridge.js): the configuration it reads and edits,
 * the argument vector `execute` and `runCommand` hand to the CLI, and how `execute`
 * resolves, and possibly creates, the chat's session before spawning through the process
 * registry of module Supervisor.
 */
module Bridge {
  import opened Wrappers
  import Sessions
  import Supervisor

  /** One entry of `config.agents`: its key and the object stored under it. */
  datatype AgentEntry = AgentEntry(key: string, name: string, description: string, enabled: bool)

  /** An element of `listAgents()`: the key as `id` next to the entry's fields. */
  datatype Agent = Agent(id: string, name: string, description: string, enabled: bool)

  /** The parts of the configuration the core reads: `opencode.defaultModel`, `opencode.defaultAgent`, `agents`. */
  datatype Config = Config(defaultModel: Option<string>, defaultAgent: Option<string>, agents: seq<AgentEntry>)

  datatype Core = Core(config: Config, store: Sessions.Store, registry: Supervisor.Registry)

  /** `setModel`: the new default model; everything else stays. */
  function SetModel(core: Core, model: string): (r: Core)
    ensures r.config.defaultModel == Some(model)
    ensures r.config.defaultAgent == core.config.defaultAgent && r.config.agents == core.config.agents
    ensures r.store == core.store && r.registry == core.registry
  {
    core.(config := core.config.(defaultModel := Some(model)))
  }

  /** `setAgent`: the new default agent, `None` for `null`; everything else stays. */
  function SetAgent(core: Core, agent: Option<string>): (r: Core)
    ensures r.config.defaultAgent == agent
    ensures r.config.defaultModel == core.config.defaultModel && r.config.agents == core.config.agents
    ensures r.store == core.store && r.registry == core.registry
  {
    core.(config := core.config.(defaultAgent := agent))
  }

  function AgentOf(e: AgentEntry): Agent
  {
    Agent(e.key, e.name, e.description, e.enabled)
  }

  /** `listAgents`: the enabled entries, in entry order, each with its key as `id`. */
  function ListAgents(entries: seq<AgentEntry>): (r: seq<Agent>)
    ensures forall a :: a in r ==> a.enabled
    ensures |r| <= |entries|
  {
    if entries == [] then []
    else (if entries[0].enabled then [AgentOf(entries[0])] else []) + ListAgents(entries[1..])
  }

  /** An agent is listed exactly when some enabled entry produces it. */
  lemma {:induction false} ListAgentsMembers(entries: seq<AgentEntry>, a: Agent)
    ensures a in ListAgents(entries) <==>
      exists k :: 0 <= k < |entries| && entries[k].enabled && AgentOf(entries[k]) == a
  {
    if entries != [] {
      ListAgentsMembers(entries[1..], a);
      if exists k :: 0 <= k < |entries| && entries[k].enabled && AgentOf(entries[k]) == a {
        var k :| 0 <= k < |entries| && entries[k].enabled && AgentOf(entries[k]) == a;
        if k > 0 {
          assert entries[1..][k - 1] == entries[k];
        }
      }
      if exists k :: 0 <= k < |entries[1..]| && entries[1..][k].enabled && AgentOf(entries[1..][k]) == a {
        var k :| 0 <= k < |entries[1..]| && entries[1..][k].enabled && AgentOf(entries[1..][k]) == a;
        assert entries[k + 1] == entries[1..][k];
      }
    }
  }

  /** Listing keeps entry order: the listing of a concatenation is the concatenation of the listings. */
  lemma {:induction false} ListAgentsAppend(a: seq<AgentEntry>, b: seq<AgentEntry>)
    ensures ListAgents(a + b) == ListAgents(a) + ListAgents(b)
  {
    if a != [] {
      assert (a + b)[1..] == a[1..] + b;
      ListAgentsAppend(a[1..], b);
      var h := if a[0].enabled then [AgentOf(a[0])] else [];
      assert ListAgents(a + b) == h + (ListAgents(a[1..]) + ListAgents(b));
      assert h + (ListAgents(a[1..]) + ListAgents(b)) == (h + ListAgents(a[1..])) + ListAgents(b);
    } else {
      assert a + b == b;
    }
  }

  /** What one `opencode run` invocation asks for; absent and empty values are both left off. */
  datatype RunRequest = RunRequest(prompt: string, model: Option<string>, agent: Option<string>, session: Option<string>)

  /** A flag and its value when the value is truthy, nothing otherwise. */
  function Flag(name: string, value: Option<string>): seq<string>
  {
    if Truthy(value) then [name, value.value] else []
  }

  /** The argument vector of `execute`: `run`, the prompt, then model, agent and session flags in that order. */
  function RunArgs(req: RunRequest): (r: seq<string>)
    ensures |r| >= 2 && r[0] == "run" && r[1] == req.prompt
  {
    ["run", req.prompt] + Flag("--model", req.model) + Flag("--agent", req.agent) + Flag("--session", req.session)
  }

  /** The request with absent and empty values made alike. */
  function Canonical(req: RunRequest): RunRequest
  {
    RunRequest(req.prompt,
               if Truthy(req.model) then req.model else None,
               if Truthy(req.agent) then req.agent else None,
               if Truthy(req.session) then req.session else None)
  }

  /** Reads `name value` off the front of `args` when it is there with a non-empty value. */
  function TakeFlag(args: seq<string>, name: string): (r: (Option<string>, seq<string>))
    ensures r.0.Some? ==> r.0.value != "" && args == [name, r.0.value] + r.1
    ensures r.0.None? ==> r.1 == args
  {
    if |args| >= 2 && args[0] == name && args[1] != "" then (Some(args[1]), args[2..]) else (None, args)
  }

  /** Reads a run request back from an argument vector; `None` when it is not one `RunArgs` builds. */
  function ParseRunArgs(args: seq<string>): (r: Option<RunRequest>)
  {
    if |args| < 2 || args[0] != "run" then None
    else
      var (m, rest1) := TakeFlag(args[2..], "--model");
      var (a, rest2) := TakeFlag(rest1, "--agent");
      var (s, rest3) := TakeFlag(rest2, "--session");
      if rest3 == [] then Some(RunRequest(args[1], m, a, s)) else None
  }

  lemma FlagNames()
    ensures "--model" != "--agent" && "--model" != "--session" && "--agent" != "--session"
  {
    assert "--model"[2] != "--agent"[2];
    assert "--model"[2] != "--session"[2];
    assert "--agent"[2] != "--session"[2];
  }

  lemma TakeFlagOf(name: string, v: Option<string>, rest: seq<string>)
    requires rest == [] || rest[0] != name
    ensures TakeFlag(Flag(name, v) + rest, name) == (if Truthy(v) then v else None, rest)
  {
    if Truthy(v) {
      assert (Flag(name, v) + rest)[2..] == rest;
    } else {
      assert Flag(name, v) + rest == rest;
    }
  }

  /** Every argument vector `execute` builds reads back as the request it was built from. */
  lemma ParseRunArgsInverse(req: RunRequest)
    ensures ParseRunArgs(RunArgs(req)) == Some(Canonical(req))
  {
    FlagNames();
    var sTail := Flag("--session", req.session);
    var aTail := Flag("--agent", req.agent) + sTail;
    var tail := Flag("--model", req.model) + aTail;
    assert RunArgs(req)[2..] == tail;
    assert sTail == [] || sTail[0] == "--session";
    assert aTail == [] || aTail[0] == "--agent" || aTail[0] == "--session";
    assert TakeFlag(tail, "--model") == (Canonical(req).model, aTail) by {
      TakeFlagOf("--model", req.model, aTail);
    }
    assert TakeFlag(aTail, "--agent") == (Canonical(req).agent, sTail) by {
      TakeFlagOf("--agent", req.agent, sTail);
    }
    assert TakeFlag(sTail, "--session") == (Canonical(req).session, []) by {
      TakeFlagOf("--session", req.session, []);
      assert sTail + [] == sTail;
    }
  }

  /** Conversely, whatever reads as a request is exactly the vector `RunArgs` builds from it. */
  lemma RunArgsInverse(args: seq<string>)
    requires ParseRunArgs(args).Some?
    ensures RunArgs(ParseRunArgs(args).value) == args
    ensures Canonical(ParseRunArgs(args).value) == ParseRunArgs(args).value
  {
    var t1 := TakeFlag(args[2..], "--model");
    var t2 := TakeFlag(t1.1, "--agent");
    var t3 := TakeFlag(t2.1, "--session");
    var req := RunRequest(args[1], t1.0, t2.0, t3.0);
    assert ParseRunArgs(args) == Some(req) && t3.1 == [] && args[0] == "run";
    var f1, f2, f3 := Flag("--model", t1.0), Flag("--agent", t2.0), Flag("--session", t3.0);
    TakeFlagPutBack(args[2..], "--model");
    TakeFlagPutBack(t1.1, "--agent");
    TakeFlagPutBack(t2.1, "--session");
    assert t2.1 == f3 + [];
    assert args[2..] == f1 + (f2 + (f3 + []));
    AppendAssoc(["run", args[1]], f1, f2, f3 + []);
    assert args == ["run", args[1]] + args[2..];
  }

  lemma AppendAssoc<T>(h: seq<T>, a: seq<T>, b: seq<T>, c: seq<T>)
    ensures h + a + b + c == h + (a + (b + c))
  {
  }

  /** Putting back the flag `TakeFlag` read restores the arguments. */
  lemma TakeFlagPutBack(args: seq<string>, name: string)
    ensures Flag(name, TakeFlag(args, name).0) + TakeFlag(args, name).1 == args
  {
  }

  /** The options object of `execute`; `{}` is all absent. */
  datatype Options = Options(sessionId: Option<string>, model: Option<string>, agent: Option<string>, createIfMissing: Option<bool>)

  const NoOptions: Options := Options(None, None, None, None)

  /** The session `execute` resolves first: the option when truthy, the chat's session otherwise. */
  function ResolveSession(store: Sessions.Store, chat: Sessions.ChatId, opts: Options): (r: string)
    ensures r != ""
    ensures Truthy(opts.sessionId) ==> r == opts.sessionId.value
    ensures !Truthy(opts.sessionId) ==> r == Sessions.GetSession(store.sessions, chat)
  {
    if Truthy(opts.sessionId) then opts.sessionId.value else Sessions.GetSession(store.sessions, chat)
  }

  /** Whether `execute` creates a session: the resolved one has no file and creation is not switched off. */
  predicate Creates(store: Sessions.Store, id: string, opts: Options)
  {
    Sessions.SessionFileName(id) !in store.files && opts.createIfMissing != Some(false)
  }

  /**
   * `execute` up to the spawn: the store after the session step and the request. The
   * session argument is the id resolved before any creation.
   */
  function PlanRun(core: Core, chat: Sessions.ChatId, prompt: string, opts: Options, stamp: Sessions.Stamp): (r: (Sessions.Store, RunRequest))
    ensures r.1.prompt == prompt
    ensures r.1.session.Some? ==> r.1.session.value == ResolveSession(core.store, chat, opts)
    ensures r.1.session.None? <==>
      Sessions.SessionFileName(ResolveSession(core.store, chat, opts)) !in core.store.files && opts.createIfMissing == Some(false)
    ensures r.0 == core.store || r.0 == Sessions.CreateSession(core.store, chat, stamp).0
    ensures r.0.files.Keys >= core.store.files.Keys
  {
    var id := ResolveSession(core.store, chat, opts);
    var found := Sessions.SessionFileName(id) in core.store.files;
    var store := if Creates(core.store, id, opts) then Sessions.CreateSession(core.store, chat, stamp).0 else core.store;
    var session := if found || opts.createIfMissing != Some(false) then Some(id) else None;
    (store, RunRequest(prompt, Or(opts.model, core.config.defaultModel), Or(opts.agent, core.config.defaultAgent), session))
  }

  /** `execute`: plan, then spawn the run in the chat's slot of the registry. */
  function Execute(core: Core, chat: Sessions.ChatId, prompt: string, opts: Options, stamp: Sessions.Stamp,
                   now: int, streams: bool): (r: (Core, Supervisor.Handle, seq<Supervisor.Effect>))
    ensures r.0.config == core.config
    ensures r.0.store == PlanRun(core, chat, prompt, opts, stamp).0
    ensures r.1 in r.0.registry.procs
    ensures r.0.registry.procs[r.1] ==
      Supervisor.Proc(chat, RunArgs(PlanRun(core, chat, prompt, opts, stamp).1), "", now + Supervisor.WatchdogMs, streams, false, false)
    ensures chat in r.0.registry.active && r.0.registry.active[chat] == r.1
    ensures Supervisor.OthersUnchanged(r.0.registry.active, core.registry.active, chat)
    ensures r.2 == if chat in core.registry.active then [Supervisor.Kill(core.registry.active[chat])] else []
    ensures Supervisor.Valid(core.registry) ==> Supervisor.Valid(r.0.registry) && r.1 !in core.registry.procs
    ensures Supervisor.Valid(core.registry) ==>
      forall h :: h in core.registry.procs ==> h in r.0.registry.procs && r.0.registry.procs[h] == core.registry.procs[h]
  {
    var (store, req) := PlanRun(core, chat, prompt, opts, stamp);
    var (reg, h, effects) := Supervisor.Spawn(core.registry, chat, RunArgs(req), now, streams);
    (core.(store := store, registry := reg), h, effects)
  }

  /**
   * What the spawned `opencode run` is asked: the prompt, the option's model or else the
   * configured one (left off when neither is truthy), likewise the agent.
   */
  lemma ExecuteArgs(core: Core, chat: Sessions.ChatId, prompt: string, opts: Options, stamp: Sessions.Stamp, now: int, streams: bool)
    ensures var (after, h, _) := Execute(core, chat, prompt, opts, stamp, now, streams);
      var req := ParseRunArgs(after.registry.procs[h].args);
      && req.Some?
      && req.value.prompt == prompt
      && (req.value.model.Some? <==> Truthy(opts.model) || Truthy(core.config.defaultModel))
      && (Truthy(opts.model) ==> req.value.model == opts.model)
      && (!Truthy(opts.model) ==> req.value.model == (if Truthy(core.config.defaultModel) then core.config.defaultModel else None))
      && (req.value.agent.Some? <==> Truthy(opts.agent) || Truthy(core.config.defaultAgent))
      && (Truthy(opts.agent) ==> req.value.agent == opts.agent)
      && (!Truthy(opts.agent) ==> req.value.agent == (if Truthy(core.config.defaultAgent) then core.config.defaultAgent else None))
  {
    ParseRunArgsInverse(PlanRun(core, chat, prompt, opts, stamp).1);
  }

  /**
   * The session argument: the resolved id when its file exists or creation is allowed,
   * nothing when the file is missing and `createIfMissing` is `false`; a session is
   * created exactly in the second case.
   */
  lemma ExecuteSessionArg(core: Core, chat: Sessions.ChatId, prompt: string, opts: Options, stamp: Sessions.Stamp, now: int, streams: bool)
    ensures var (after, h, _) := Execute(core, chat, prompt, opts, stamp, now, streams);
      var id := ResolveSession(core.store, chat, opts);
      var req := ParseRunArgs(after.registry.procs[h].args);
      && req.Some?
      && (Sessions.SessionFileName(id) in core.store.files ==> req.value.session == Some(id) && after.store == core.store)
      && (Sessions.SessionFileName(id) !in core.store.files && opts.createIfMissing == Some(false) ==>
            req.value.session == None && after.store == core.store)
      && (Creates(core.store, id, opts) ==>
            req.value.session == Some(id) && after.store == Sessions.CreateSession(core.store, chat, stamp).0)
  {
    ParseRunArgsInverse(PlanRun(core, chat, prompt, opts, stamp).1);
  }

  /**
   * When `execute` creates a session, the run is still pointed at the id resolved before
   * the creation, while the chat's map entry now names the new session, and the file of
   * the id passed to the run exists afterwards only if the two ids coincide.
   */
  lemma ExecutePassesOldId(core: Core, chat: Sessions.ChatId, prompt: string, opts: Options, stamp: Sessions.Stamp, now: int, streams: bool)
    requires Creates(core.store, ResolveSession(core.store, chat, opts), opts)
    ensures var (after, h, _) := Execute(core, chat, prompt, opts, stamp, now, streams);
      var resolved := ResolveSession(core.store, chat, opts);
      var newId := Sessions.NewSessionId(stamp.idTime, stamp.rand);
      && ParseRunArgs(after.registry.procs[h].args).Some?
      && ParseRunArgs(after.registry.procs[h].args).value.session == Some(resolved)
      && Sessions.GetSession(after.store.sessions, chat) == newId
      && (Sessions.SessionFileName(resolved) in after.store.files <==> resolved == newId)
  {
    ExecuteSessionArg(core, chat, prompt, opts, stamp, now, streams);
    var resolved := ResolveSession(core.store, chat, opts);
    var newId := Sessions.NewSessionId(stamp.idTime, stamp.rand);
    if Sessions.SessionFileName(resolved) == Sessions.SessionFileName(newId) {
      assert resolved == Sessions.SessionFileName(resolved)[..|Sessions.SessionFileName(resolved)| - 5];
    }
  }

  /** `runCommand`: spawn the single argument `command` in the chat's slot; sessions and configuration stay. */
  function RunCommand(core: Core, chat: Sessions.ChatId, command: string, now: int, streams: bool): (r: (Core, Supervisor.Handle, seq<Supervisor.Effect>))
    ensures r.0.config == core.config && r.0.store == core.store
    ensures r.1 in r.0.registry.procs
    ensures r.0.registry.procs[r.1] == Supervisor.Proc(chat, [command], "", now + Supervisor.WatchdogMs, streams, false, false)
    ensures ParseRunArgs(r.0.registry.procs[r.1].args) == None
    ensures chat in r.0.registry.active && r.0.registry.active[chat] == r.1
    ensures Supervisor.OthersUnchanged(r.0.registry.active, core.registry.active, chat)
    ensures r.2 == if chat in core.registry.active then [Supervisor.Kill(core.registry.active[chat])] else []
    ensures Supervisor.Valid(core.registry) ==> Supervisor.Valid(r.0.registry) && r.1 !in core.registry.procs
    ensures Supervisor.Valid(core.registry) ==>
      forall h :: h in core.registry.procs ==> h in r.0.registry.procs && r.0.registry.procs[h] == core.registry.procs[h]
  {
    var (reg, h, effects) := Supervisor.Spawn(core.registry, chat, [command], now, streams);
    (core.(registry := reg), h, effects)
  }
}

=== FILE: format.dfy ===
/**
 * The bridge's output formatter `_format` (src/core/bridge.js:166-173): remove terminal
 * escape sequences, remove carriage returns, then replace the log-level words
 * `INFO`, `WARN` and `ERROR` by emoji, each step a global replace over the whole text.
 *
 * The escape-sequence pattern is
 *   [ESC CSI] [[()#;?]* ( [0-9]{1,4} (;[0-9]{0,4})* )? [0-z]
 * where ESC is U+001B and CSI is U+009B. `IsControlSequence` states the language of the
 * pattern declaratively; `MatchEnd` computes the end of the match a backtracking regex
 * engine reports at an introducer, and is proved to return a word of that language, and
 * to fail only when no word of the language starts there.
 */
module Format {
  import opened Wrappers
  import opened Strings

  predicate IsIntro(c: char)
  {
    c == '\U{1B}' || c == '\U{9B}'
  }

  /** The class `[[()#;?]`. */
  predicate IsPrivate(c: char)
  {
    c == '[' || c == '(' || c == ')' || c == '#' || c == ';' || c == '?'
  }

  predicate IsDigit(c: char)
  {
    '0' <= c <= '9'
  }

  /** The class `[0-z]`: U+0030 to U+007A, which includes the digits, `;`, `?` and `[`. */
  predicate IsFinal(c: char)
  {
    '0' <= c <= 'z'
  }

  predicate AllPrivate(s: string)
  {
    forall k :: 0 <= k < |s| ==> IsPrivate(s[k])
  }

  predicate AllDigits(s: string)
  {
    forall k :: 0 <= k < |s| ==> IsDigit(s[k])
  }

  /** Words of `(;[0-9]{0,4})*`. */
  ghost predicate IsGroups(x: string)
    decreases |x|, 1
  {
    x == [] || exists n :: GroupsSplit(x, n)
  }

  /** `x` is `;`, then `n` digits, then a word of `(;[0-9]{0,4})*`. */
  ghost predicate GroupsSplit(x: string, n: int)
    decreases |x|, 0
  {
    0 <= n <= 4 && n + 1 <= |x| && x[0] == ';' && AllDigits(x[1..n + 1]) && IsGroups(x[n + 1..])
  }

  /** Words of `([0-9]{1,4}(;[0-9]{0,4})*)?`. */
  ghost predicate IsNumbers(x: string)
  {
    x == [] || exists n :: NumbersSplit(x, n)
  }

  /** `x` is `n` digits, then a word of `(;[0-9]{0,4})*`. */
  ghost predicate NumbersSplit(x: string, n: int)
  {
    1 <= n <= 4 && n <= |x| && AllDigits(x[..n]) && IsGroups(x[n..])
  }

  /** Words of the whole escape-sequence pattern. */
  ghost predicate IsControlSequence(w: string)
  {
    |w| >= 2 && IsIntro(w[0]) && IsFinal(w[|w| - 1]) && exists k :: ControlSplit(w, k)
  }

  /** The private parameters of `w` are `w[1..k]`, its number list `w[k..|w| - 1]`. */
  ghost predicate ControlSplit(w: string, k: int)
  {
    1 <= k <= |w| - 1 && AllPrivate(w[1..k]) && IsNumbers(w[k..|w| - 1])
  }

  /** Length of the run of `[[()#;?]` characters starting at `j` (the greedy star). */
  function PrivateRun(s: string, j: nat): (k: nat)
    requires j <= |s|
    ensures j + k <= |s|
    ensures forall m :: j <= m < j + k ==> IsPrivate(s[m])
    ensures j + k < |s| ==> !IsPrivate(s[j + k])
    decreases |s| - j
  {
    if j < |s| && IsPrivate(s[j]) then 1 + PrivateRun(s, j + 1) else 0
  }

  /** Number of digits starting at `j`, at most `max` (a greedy `[0-9]{0,max}`). */
  function DigitRun(s: string, j: nat, max: nat): (d: nat)
    requires j <= |s|
    ensures d <= max && j + d <= |s|
    ensures d < max && j + d < |s| ==> !IsDigit(s[j + d])
    decreases max
  {
    if max > 0 && j < |s| && IsDigit(s[j]) then 1 + DigitRun(s, j + 1, max - 1) else 0
  }

  /** Where the greedy `(;[0-9]{0,4})*` stops when started at `e`. */
  function GroupsEnd(s: string, e: nat): (r: nat)
    requires e <= |s|
    ensures e <= r <= |s|
    ensures r < |s| ==> s[r] != ';'
    decreases |s| - e
  {
    if e < |s| && s[e] == ';' then GroupsEnd(s, e + 1 + DigitRun(s, e + 1, 4)) else e
  }

  /**
   * Backtracking the private-parameter star from `c` characters: the largest
   * count below `c` whose next character can serve as the final byte.
   */
  function ShorterPrivate(s: string, j: nat, c: nat): (r: Option<nat>)
    requires j + c <= |s|
    ensures r.Some? ==> j < r.value <= j + c && IsFinal(s[r.value - 1])
    ensures r.None? ==> forall m :: j <= m < j + c ==> !IsFinal(s[m])
  {
    if c == 0 then None
    else if IsFinal(s[j + c - 1]) then Some(j + c)
    else ShorterPrivate(s, j, c - 1)
  }

  /** After a number list ending before `g`: one past the final byte at `g` if there is one, else `g` (the list gives back its last character). */
  function DigitEnd(s: string, g: nat): nat
  {
    if g < |s| && IsFinal(s[g]) then g + 1 else g
  }

  /** Where the match ends when its number list starts at `q`: the greedy `[0-9]{1,4}(;[0-9]{0,4})*`, then the final byte. */
  function NumberEnd(s: string, q: nat): nat
    requires q <= |s|
  {
    DigitEnd(s, GroupsEnd(s, q + DigitRun(s, q, 4)))
  }

  /**
   * The end (exclusive) of the match the regex engine reports at index `i`, or None.
   * Greedy star, then the optional number list: when a digit follows the star the
   * list always matches and the match either takes the next character as its final
   * byte or, failing that, gives back the list's last character (a digit or `;`,
   * both in `[0-z]`). Without a digit, the next character must be final, else the
   * star gives back characters until one of them (`[`, `;` or `?`) is final.
   */
  function MatchEnd(s: string, i: nat): (r: Option<nat>)
    requires i < |s| && IsIntro(s[i])
    ensures r.Some? ==> i + 2 <= r.value <= |s|
  {
    MatchAt(s, i, i + 1 + PrivateRun(s, i + 1))
  }

  /** The end of the match at `i` once the greedy private parameters have run up to `q`. */
  function MatchAt(s: string, i: nat, q: nat): (r: Option<nat>)
    requires i < q <= |s|
    ensures r.Some? ==> i + 2 <= r.value <= |s|
  {
    if DigitRun(s, q, 4) > 0 then Some(NumberEnd(s, q))
    else if q < |s| && IsFinal(s[q]) then Some(q + 1)
    else ShorterPrivate(s, i + 1, q - i - 1)
  }

  /** `;`, then `n` digits, then a groups word make a groups word. */
  lemma GroupsFrom(s: string, e: nat, n: nat, r: nat)
    requires n <= 4 && e + 1 + n <= r <= |s| && s[e] == ';'
    requires AllDigits(s[e + 1..e + 1 + n]) && IsGroups(s[e + 1 + n..r])
    ensures IsGroups(s[e..r])
  {
    var x := s[e..r];
    SliceOfSlice(s, e, r, 1, n + 1);
    SliceOfSlice(s, e, r, n + 1, r - e);
    assert x[n + 1..] == x[n + 1..r - e];
    assert GroupsSplit(x, n);
  }

  lemma {:induction false} GroupsEndSound(s: string, e: nat)
    requires e <= |s|
    ensures IsGroups(s[e..GroupsEnd(s, e)])
    decreases |s| - e
  {
    var r := GroupsEnd(s, e);
    if e < |s| && s[e] == ';' {
      var n := DigitRun(s, e + 1, 4);
      assert r == GroupsEnd(s, e + 1 + n);
      assert IsGroups(s[e..r]) by {
        GroupsEndSound(s, e + 1 + n);
        DigitRunDigits(s, e + 1, 4);
        GroupsFrom(s, e, n, r);
      }
    } else {
      GroupsNone(s, e);
    }
  }

  lemma GroupsNone(s: string, e: nat)
    requires e <= |s| && !(e < |s| && s[e] == ';')
    ensures IsGroups(s[e..GroupsEnd(s, e)])
  {
    assert s[e..GroupsEnd(s, e)] == [];
  }

  /** The characters `DigitRun` counts are digits. */
  lemma {:induction false} DigitRunDigits(s: string, j: nat, max: nat)
    requires j <= |s|
    ensures AllDigits(s[j..j + DigitRun(s, j, max)])
    decreases max
  {
    if max > 0 && j < |s| && IsDigit(s[j]) {
      DigitRunDigits(s, j + 1, max - 1);
      var d := DigitRun(s, j, max);
      assert d == 1 + DigitRun(s, j + 1, max - 1);
      var x := s[j..j + d];
      var y := s[j + 1..j + 1 + DigitRun(s, j + 1, max - 1)];
      assert AllDigits(y);
      forall m | 0 <= m < |x|
        ensures IsDigit(x[m])
      {
        if m > 0 {
          assert x[m] == y[m - 1] && IsDigit(y[m - 1]);
        } else {
          assert x[m] == s[j];
        }
      }
    }
  }

  /** Dropping the last character of a non-empty `(;[0-9]{0,4})*` word leaves such a word; that character is `;` or a digit. */
  lemma {:induction false} GroupsDropLast(x: string)
    requires IsGroups(x) && x != []
    ensures IsGroups(x[..|x| - 1])
    ensures x[|x| - 1] == ';' || IsDigit(x[|x| - 1])
    decreases |x|
  {
    var n :| GroupsSplit(x, n);
    var y := x[n + 1..];
    var z := x[..|x| - 1];
    if y == [] {
      assert |x| == n + 1;
      if n > 0 {
        assert x[|x| - 1] == x[1..n + 1][n - 1];
        assert z[1..n] == x[1..n + 1][..n - 1];
        assert z[n..] == [];
        assert GroupsSplit(z, n - 1);
      } else {
        assert z == [];
      }
    } else {
      GroupsDropLast(y);
      assert z[1..n + 1] == x[1..n + 1];
      assert z[n + 1..] == y[..|y| - 1];
      assert x[|x| - 1] == y[|y| - 1];
      assert GroupsSplit(z, n);
    }
  }

  /** The same for a non-empty number list. */
  lemma NumbersDropLast(x: string)
    requires IsNumbers(x) && x != []
    ensures IsNumbers(x[..|x| - 1])
    ensures x[|x| - 1] == ';' || IsDigit(x[|x| - 1])
  {
    var n :| NumbersSplit(x, n);
    var y := x[n..];
    var z := x[..|x| - 1];
    if y == [] {
      assert |x| == n;
      assert x[|x| - 1] == x[..n][n - 1];
      if n > 1 {
        assert z[..n - 1] == x[..n][..n - 1];
        assert z[n - 1..] == [];
        assert NumbersSplit(z, n - 1);
      } else {
        assert z == [];
      }
    } else {
      GroupsDropLast(y);
      assert z[..n] == x[..n];
      assert z[n..] == y[..|y| - 1];
      assert x[|x| - 1] == y[|y| - 1];
      assert NumbersSplit(z, n);
    }
  }

  lemma SliceOfSlice(s: string, a: nat, b: nat, c: nat, d: nat)
    requires a <= b <= |s| && c <= d <= b - a
    ensures s[a..b][c..d] == s[a + c..a + d]
  {
    forall m | 0 <= m < d - c
      ensures s[a..b][c..d][m] == s[a + c..a + d][m]
    {
    }
  }

  /** The escape sequences that end in a number list followed by a final byte. */
  lemma NumbersSequence(s: string, i: nat, q: nat, g: nat)
    requires i < q <= g < |s| && IsIntro(s[i]) && IsFinal(s[g])
    requires forall m :: i + 1 <= m < q ==> IsPrivate(s[m])
    requires IsNumbers(s[q..g])
    ensures IsControlSequence(s[i..g + 1])
  {
    var w := s[i..g + 1];
    var k := q - i;
    SliceOfSlice(s, i, g + 1, 1, k);
    SliceOfSlice(s, i, g + 1, k, |w| - 1);
    var p := w[1..k];
    forall m | 0 <= m < |p|
      ensures IsPrivate(p[m])
    {
      assert p[m] == s[i + 1 + m];
    }
    assert ControlSplit(w, k);
  }

  /** `d` digits followed by a groups word make a number list. */
  lemma NumbersFrom(s: string, q: nat, d: nat, g: nat)
    requires 1 <= d <= 4 && q + d <= g <= |s|
    requires AllDigits(s[q..q + d]) && IsGroups(s[q + d..g])
    ensures IsNumbers(s[q..g])
  {
    var x := s[q..g];
    SliceOfSlice(s, q, g, 0, d);
    SliceOfSlice(s, q, g, d, g - q);
    assert x[d..] == x[d..g - q];
    assert NumbersSplit(x, d);
  }

  /** The greedy number list that starts at a digit is a word of the list pattern. */
  lemma GreedyNumbers(s: string, q: nat)
    requires q <= |s| && DigitRun(s, q, 4) >= 1
    ensures IsNumbers(s[q..GroupsEnd(s, q + DigitRun(s, q, 4))])
  {
    var d := DigitRun(s, q, 4);
    var g := GroupsEnd(s, q + d);
    assert IsNumbers(s[q..g]) by {
      DigitRunDigits(s, q, 4);
      GroupsEndSound(s, q + d);
      NumbersFrom(s, q, d, g);
    }
  }

  /** A number list whose last character serves as the final byte. */
  lemma GivenBackSequence(s: string, i: nat, q: nat, g: nat)
    requires i < q < g <= |s| && IsIntro(s[i])
    requires forall m :: i + 1 <= m < q ==> IsPrivate(s[m])
    requires IsNumbers(s[q..g])
    ensures IsControlSequence(s[i..g])
  {
    var x := s[q..g];
    NumbersDropLast(x);
    assert x[..|x| - 1] == s[q..g - 1];
    assert IsFinal(s[g - 1]);
    NumbersSequence(s, i, q, g - 1);
  }

  /** A number list `s[q..g]` after the private parameters, with or without a final byte after it, ends an escape sequence. */
  lemma ListSequence(s: string, i: nat, q: nat, g: nat)
    requires i < q < g <= |s| && IsIntro(s[i])
    requires forall m :: i + 1 <= m < q ==> IsPrivate(s[m])
    requires IsNumbers(s[q..g])
    ensures IsControlSequence(s[i..DigitEnd(s, g)])
  {
    if g < |s| && IsFinal(s[g]) {
      NumbersSequence(s, i, q, g);
    } else {
      GivenBackSequence(s, i, q, g);
    }
  }

  /** The escape sequence that ends after the number list starting at `q`. */
  lemma NumberSound(s: string, i: nat, q: nat)
    requires i < q <= |s| && IsIntro(s[i])
    requires forall m :: i + 1 <= m < q ==> IsPrivate(s[m])
    requires DigitRun(s, q, 4) > 0
    ensures IsControlSequence(s[i..NumberEnd(s, q)])
  {
    var g := GroupsEnd(s, q + DigitRun(s, q, 4));
    assert NumberEnd(s, q) == DigitEnd(s, g);
    assert IsControlSequence(s[i..DigitEnd(s, g)]) by {
      GreedyNumbers(s, q);
      ListSequence(s, i, q, g);
    }
  }

  /** The escape sequences with an empty number list: private parameters, then the final byte at `q`. */
  lemma {:induction false} BareSequence(s: string, i: nat, q: nat)
    requires i < q < |s| && IsIntro(s[i]) && IsFinal(s[q])
    requires forall m :: i + 1 <= m < q ==> IsPrivate(s[m])
    ensures IsControlSequence(s[i..q + 1])
  {
    assert s[q..q] == [];
    NumbersSequence(s, i, q, q);
  }

  /** Whatever `MatchAt` reports after the private parameters `s[i + 1..q]` is an escape sequence. */
  lemma MatchAtSound(s: string, i: nat, q: nat)
    requires i < q <= |s| && IsIntro(s[i])
    requires forall m :: i + 1 <= m < q ==> IsPrivate(s[m])
    requires MatchAt(s, i, q).Some?
    ensures IsControlSequence(s[i..MatchAt(s, i, q).value])
  {
    if DigitRun(s, q, 4) > 0 {
      NumberSound(s, i, q);
    } else if q < |s| && IsFinal(s[q]) {
      BareSequence(s, i, q);
    } else {
      BareSequence(s, i, MatchAt(s, i, q).value - 1);
    }
  }

  /** Whatever `MatchEnd` reports is an escape sequence of the pattern starting at `i`. */
  lemma MatchEndSound(s: string, i: nat)
    requires i < |s| && IsIntro(s[i]) && MatchEnd(s, i).Some?
    ensures IsControlSequence(s[i..MatchEnd(s, i).value])
  {
    var q := i + 1 + PrivateRun(s, i + 1);
    var e := MatchAt(s, i, q).value;
    assert MatchEnd(s, i).value == e;
    assert IsControlSequence(s[i..e]) by {
      MatchAtSound(s, i, q);
    }
  }

  /** When `MatchEnd` finds nothing, no escape sequence of the pattern starts at `i`. */
  lemma MatchEndComplete(s: string, i: nat, e: nat)
    requires i < |s| && IsIntro(s[i]) && MatchEnd(s, i).None?
    requires i < e <= |s|
    ensures !IsControlSequence(s[i..e])
  {
    var k := PrivateRun(s, i + 1);
    var q := i + 1 + k;
    var w := s[i..e];
    if |w| >= 2 && IsFinal(w[|w| - 1]) {
      forall kk | 1 <= kk <= |w| - 1 && AllPrivate(w[1..kk])
        ensures !IsNumbers(w[kk..|w| - 1])
      {
        assert forall m :: i + 1 <= m < i + kk ==> IsPrivate(s[m]) by {
          forall m | i + 1 <= m < i + kk
            ensures IsPrivate(s[m])
          {
            assert w[1..kk][m - i - 1] == s[m];
          }
        }
        assert kk - 1 <= k;
        var x := w[kk..|w| - 1];
        SliceOfSlice(s, i, e, kk, |w| - 1);
        if x != [] {
          assert x[0] == s[i + kk];
        }
      }
    }
  }

  /** The global replace of the escape pattern by nothing, scanning from `i`. */
  function StripFrom(s: string, i: nat): string
    requires i <= |s|
    decreases |s| - i
  {
    if i == |s| then []
    else if IsIntro(s[i]) && MatchEnd(s, i).Some? then StripFrom(s, MatchEnd(s, i).value)
    else [s[i]] + StripFrom(s, i + 1)
  }

  function StripEscapes(s: string): string
  {
    StripFrom(s, 0)
  }

  /** Removing escape sequences never lengthens the text. */
  lemma {:induction false} StripFromShortens(s: string, i: nat)
    requires i <= |s|
    ensures Utf16Length(StripFrom(s, i)) <= Utf16Length(s[i..])
    decreases |s| - i
  {
    if i < |s| {
      if IsIntro(s[i]) && MatchEnd(s, i).Some? {
        var e := MatchEnd(s, i).value;
        assert StripFrom(s, i) == StripFrom(s, e);
        StripFromShortens(s, e);
        Utf16LengthSuffix(s, i, e);
      } else {
        var rest := StripFrom(s, i + 1);
        assert StripFrom(s, i) == [s[i]] + rest;
        StripFromShortens(s, i + 1);
        Utf16LengthAppend([s[i]], rest);
        Utf16LengthAppend([s[i]], s[i + 1..]);
        assert s[i..] == [s[i]] + s[i + 1..];
      }
    }
  }

  /** Text with no introducer character passes through unchanged. */
  lemma {:induction false} StripFromPlain(s: string, i: nat)
    requires i <= |s|
    requires forall m :: i <= m < |s| ==> !IsIntro(s[m])
    ensures StripFrom(s, i) == s[i..]
    decreases |s| - i
  {
    if i < |s| {
      StripFromPlain(s, i + 1);
      assert s[i..] == [s[i]] + s[i + 1..];
    }
  }

  /** `text.replace(/\r/g, '')`. */
  function StripReturns(s: string): (r: string)
    ensures '\r' !in r
    ensures forall c :: c != '\r' ==> multiset(r)[c] == multiset(s)[c]
    ensures '\r' !in s ==> r == s
    ensures Utf16Length(r) <= Utf16Length(s)
  {
    if s == [] then []
    else
      var rest := StripReturns(s[1..]);
      assert s == [s[0]] + s[1..];
      if s[0] == '\r' then rest else [s[0]] + rest
  }

  const InfoGlyph: string := "\U{2139}\U{FE0F}"
  const WarnGlyph: string := "\U{26A0}\U{FE0F}"
  const ErrorGlyph: string := "\U{274C}"

  /** `_format`: escape sequences, then carriage returns, then the three log-level words. */
  function Format(text: string): string
  {
    var plain := StripReturns(StripEscapes(text));
    ReplaceAll(ReplaceAll(ReplaceAll(plain, "INFO", InfoGlyph), "WARN", WarnGlyph), "ERROR", ErrorGlyph)
  }

  lemma CharNotOccurs(s: string, c: char)
    requires c !in s
    ensures !Occurs(s, [c])
  {
    forall p: nat | p < |s|
      ensures !OccursAt(s, [c], p)
    {
      CharOccursAt(s, c, p);
    }
  }

  lemma CharOccurs(s: string, c: char)
    requires !Occurs(s, [c])
    ensures c !in s
  {
    forall p | 0 <= p < |s|
      ensures s[p] != c
    {
      CharOccursAt(s, c, p);
    }
  }

  /** The formatted text holds no carriage return and none of the words `INFO`, `WARN`, `ERROR`. */
  lemma FormatClean(text: string)
    ensures '\r' !in Format(text)
    ensures !Occurs(Format(text), "INFO")
    ensures !Occurs(Format(text), "WARN")
    ensures !Occurs(Format(text), "ERROR")
  {
    var plain := StripReturns(StripEscapes(text));
    var a := ReplaceAll(plain, "INFO", InfoGlyph);
    var b := ReplaceAll(a, "WARN", WarnGlyph);
    CharNotOccurs(plain, '\r');
    ReplaceAllRemoves(plain, "INFO", InfoGlyph);
    ReplaceAllKeeps(plain, "INFO", InfoGlyph, "\r");
    ReplaceAllRemoves(a, "WARN", WarnGlyph);
    ReplaceAllKeeps(a, "WARN", WarnGlyph, "INFO");
    ReplaceAllKeeps(a, "WARN", WarnGlyph, "\r");
    ReplaceAllRemoves(b, "ERROR", ErrorGlyph);
    ReplaceAllKeeps(b, "ERROR", ErrorGlyph, "WARN");
    ReplaceAllKeeps(b, "ERROR", ErrorGlyph, "INFO");
    ReplaceAllKeeps(b, "ERROR", ErrorGlyph, "\r");
    CharOccurs(Format(text), '\r');
  }

  /** The formatted text is never longer, in UTF-16 code units, than the raw text. */
  lemma FormatShortens(text: string)
    ensures Utf16Length(Format(text)) <= Utf16Length(text)
  {
    var plain := StripReturns(StripEscapes(text));
    var a := ReplaceAll(plain, "INFO", InfoGlyph);
    var b := ReplaceAll(a, "WARN", WarnGlyph);
    StripFromShortens(text, 0);
    assert text[0..] == text;
    ReplaceAllShortens(plain, "INFO", InfoGlyph);
    ReplaceAllShortens(a, "WARN", WarnGlyph);
    ReplaceAllShortens(b, "ERROR", ErrorGlyph);
  }

  /** Text with no introducer, no carriage return and no log-level word is returned unchanged. */
  lemma FormatPlain(text: string)
    requires forall m :: 0 <= m < |text| ==> !IsIntro(text[m])
    requires '\r' !in text
    requires !Occurs(text, "INFO") && !Occurs(text, "WARN") && !Occurs(text, "ERROR")
    ensures Format(text) == text
  {
    StripFromPlain(text, 0);
    assert text[0..] == text;
  }

  /**
   * The regex is applied once, left to right, so removing one sequence can bring an
   * introducer next to text that then forms a new sequence: `_format` is not idempotent.
   */
  lemma FormatNotIdempotent()
    ensures Format("\U{1B}\U{1B}[m[m") == "\U{1B}[m"
    ensures Format("\U{1B}[m") == ""
  {
    var s := "\U{1B}\U{1B}[m[m";
    assert PrivateRun(s, 1) == 0;
    assert MatchEnd(s, 0) == None;
    assert PrivateRun(s, 2) == 1;
    assert MatchEnd(s, 1) == Some(4);
    assert StripFrom(s, 4) == "[m";
    assert StripEscapes(s) == "\U{1B}[m";
    var t := "\U{1B}[m";
    assert PrivateRun(t, 1) == 1;
    assert MatchEnd(t, 0) == Some(3);
    assert StripEscapes(t) == "";
  }


  /**
   * Each stream update formats the whole buffer again, so a later update can lose text an
   * earlier one showed: an unfinished sequence is shown until its final byte arrives.
   */
  lemma FormatNotMonotone()
    ensures Format("\U{1B}(") == "\U{1B}("
    ensures Format("\U{1B}(" + "B") == ""
  {
    var s := "\U{1B}(";
    assert PrivateRun(s, 1) == 1;
    assert MatchEnd(s, 0) == None;
    assert StripEscapes(s) == s;
    var t := "\U{1B}(" + "B";
    assert PrivateRun(t, 1) == 1;
    assert MatchEnd(t, 0) == Some(3);
    assert StripFrom(t, 3) == "";
  }
}

=== FILE: sessions.dfy ===
/**
 * The bridge's session bookkeeping (src/core/bridge.js:65-102): the chat → session-id
 * table, the fallback id a chat gets when it has none, fresh ids built from the clock and
 * a random draw, the empty session record written for a fresh id, and the listing of the
 * session directory newest first.
 */
module Sessions {
  import opened Wrappers
  import opened Strings

  /** A chat's key in the session map: `String(chatId)`, the form an object key takes. */
  type ChatId = string

  /** The chat → session-id table kept in session-map.json. */
  type SessionMap = map<ChatId, string>

  predicate IsAsciiAlnum(c: char)
  {
    'a' <= c <= 'z' || 'A' <= c <= 'Z' || '0' <= c <= '9'
  }

  predicate AllAlnum(s: string)
  {
    forall k :: 0 <= k < |s| ==> IsAsciiAlnum(s[k])
  }

  /** `s.replace(/[^a-zA-Z0-9]/g, "")`: the ASCII letters and digits of `s`, in order. */
  function KeepAlnum(s: string): (r: string)
    ensures AllAlnum(r)
    ensures AllAlnum(s) ==> r == s
  {
    if s == [] then []
    else
      var rest := KeepAlnum(s[1..]);
      if IsAsciiAlnum(s[0]) then
        assert AllAlnum(s) ==> s == [s[0]] + s[1..];
        [s[0]] + rest
      else rest
  }

  /** Every letter and digit of `s` survives, as often as it occurs in `s`. */
  lemma {:induction false} KeepAlnumKeeps(s: string)
    ensures forall c :: IsAsciiAlnum(c) ==> multiset(KeepAlnum(s))[c] == multiset(s)[c]
  {
    if s != [] {
      KeepAlnumKeeps(s[1..]);
      assert s == [s[0]] + s[1..];
      assert multiset(s) == multiset{s[0]} + multiset(s[1..]);
      if IsAsciiAlnum(s[0]) {
        assert multiset(KeepAlnum(s)) == multiset{s[0]} + multiset(KeepAlnum(s[1..]));
      }
    }
  }

  /**
   * The filter keeps order: it works character by character, keeping a letter or digit
   * and dropping anything else, and the kept parts of two pieces of text join in order.
   */
  lemma {:induction false} KeepAlnumAppend(a: string, b: string)
    ensures KeepAlnum(a + b) == KeepAlnum(a) + KeepAlnum(b)
    decreases |a|
  {
    if a != [] {
      assert (a + b)[1..] == a[1..] + b;
      KeepAlnumAppend(a[1..], b);
    } else {
      assert a + b == b;
    }
  }

  /** A single character is kept exactly when it is an ASCII letter or digit. */
  lemma KeepAlnumChar(c: char)
    ensures KeepAlnum([c]) == if IsAsciiAlnum(c) then [c] else []
  {
    assert [c][1..] == [];
  }

  const FallbackPrefix: string := "ses_tg_"

  /** The id a chat without a mapped session uses. */
  function FallbackSession(chat: ChatId): (r: string)
    ensures StartsWith(r, FallbackPrefix) && AllAlnum(r[|FallbackPrefix|..])
  {
    FallbackPrefix + KeepAlnum(chat)
  }

  /** `getSession`: the mapped id when it is a non-empty string, otherwise the fallback id. */
  function GetSession(m: SessionMap, chat: ChatId): (r: string)
    ensures chat in m && m[chat] != "" ==> r == m[chat]
    ensures chat !in m || m[chat] == "" ==> r == FallbackSession(chat)
    ensures r != ""
  {
    if chat in m && m[chat] != "" then m[chat] else FallbackSession(chat)
  }

  /**
   * The fallback id follows the chat id from left to right: the fallback of a longer id is
   * the fallback of its beginning, followed by the letters and digits of the rest.
   */
  lemma FallbackAppend(chat: ChatId, tail: string)
    ensures FallbackSession(chat + tail) == FallbackSession(chat) + KeepAlnum(tail)
  {
    var x, y := KeepAlnum(chat), KeepAlnum(tail);
    assert FallbackSession(chat + tail) == FallbackPrefix + (x + y) by { KeepAlnumAppend(chat, tail); }
    JoinAssoc(FallbackPrefix, x, y);
  }

  lemma JoinAssoc(p: string, x: string, y: string)
    ensures p + (x + y) == (p + x) + y
  {
  }

  /** A chat id made of letters and digits only keeps all of it in its fallback id. */
  lemma FallbackKeepsAlnumChat(chat: ChatId)
    requires AllAlnum(chat)
    ensures FallbackSession(chat) == FallbackPrefix + chat
  {
  }

  /**
   * Dropping characters makes the fallback lossy: a group chat's negative id and the
   * positive id with the same digits share one fallback session.
   */
  lemma FallbackNotInjective()
    ensures FallbackSession("-1001") == FallbackSession("1001") == "ses_tg_1001"
  {
    var chat := "-1001";
    assert AllAlnum("1001");
    assert chat[1..] == "1001" && !IsAsciiAlnum(chat[0]);
    assert KeepAlnum(chat) == KeepAlnum("1001");
  }

  /** What `Math.random().toString(36).substr(2, 5)` can give: at most five base-36 digits. */
  type RandomSuffix = r: string | |r| <= 5 && IsDigitString(r, 36) witness ""

  const SessionPrefix: string := "ses_"

  /** `ses_<clock in base 36>_<random digits>`. */
  function NewSessionId(time: nat, rand: RandomSuffix): (r: string)
    ensures StartsWith(r, SessionPrefix)
    ensures |r| >= |SessionPrefix| + 2 + |rand| && r[|r| - |rand| - 1] == '_' && r[|r| - |rand|..] == rand
  {
    SessionPrefix + ToRadix(time, 36) + "_" + rand
  }

  /** Reads back the clock value and the random digits of an id made by `NewSessionId`. */
  function ParseSessionId(id: string): (r: Option<(nat, RandomSuffix)>)
    ensures r.Some? ==> StartsWith(id, SessionPrefix)
  {
    if !StartsWith(id, SessionPrefix) then None
    else
      var parts := Split(id[|SessionPrefix|..], '_');
      if |parts| == 2 && IsDigitString(parts[0], 36) && |parts[1]| <= 5 && IsDigitString(parts[1], 36)
      then Some((FromRadix(parts[0], 36), parts[1]))
      else None
  }

  lemma DigitsHaveNoUnderscore(s: string)
    requires IsDigitString(s, 36)
    ensures '_' !in s
  {
    forall k | 0 <= k < |s|
      ensures s[k] != '_'
    {
      assert DigitValue(s[k], 36).Some?;
    }
  }

  /** A fresh id determines the clock value and random digits it was made from. */
  lemma {:induction false} SessionIdRoundTrip(time: nat, rand: RandomSuffix)
    ensures ParseSessionId(NewSessionId(time, rand)) == Some((time, rand))
  {
    var id := NewSessionId(time, rand);
    var digits := ToRadix(time, 36);
    assert id[|SessionPrefix|..] == digits + ['_'] + rand;
    DigitsHaveNoUnderscore(digits);
    DigitsHaveNoUnderscore(rand);
    SplitAfterPrefix(digits, '_', rand);
    SplitNoSeparator(rand, '_');
    RadixRoundTrip(time, 36);
  }

  /** Two sessions created at different clock values, or with different random digits, get different ids. */
  lemma SessionIdInjective(t1: nat, r1: RandomSuffix, t2: nat, r2: RandomSuffix)
    requires NewSessionId(t1, r1) == NewSessionId(t2, r2)
    ensures t1 == t2 && r1 == r2
  {
    SessionIdRoundTrip(t1, r1);
    SessionIdRoundTrip(t2, r2);
  }

  lemma {:induction false} RadixLength(n: nat)
    requires n >= 36 * 36
    ensures |ToRadix(n, 36)| >= 3
  {
    DivMod(n, 36);
    var q := n / 36;
    assert q >= 36;
    DivMod(q, 36);
    assert |ToRadix(q, 36)| >= 2;
  }

  /**
   * A fresh id can only collide with a fallback id while the clock, in base 36, has two
   * digits: from 1296 ms on, the seventh character of a fresh id is a digit, not `_`.
   */
  lemma FreshIdIsNotFallback(time: nat, rand: RandomSuffix, chat: ChatId)
    requires time >= 36 * 36
    ensures NewSessionId(time, rand) != FallbackSession(chat)
  {
    var digits := ToRadix(time, 36);
    RadixLength(time);
    DigitsHaveNoUnderscore(digits);
    assert NewSessionId(time, rand)[6] == digits[2];
    assert FallbackSession(chat)[6] == '_';
  }

  /** With a two-digit clock a fresh id does look like a fallback id. */
  lemma FreshIdCanLookLikeFallback()
    ensures NewSessionId(1060, "abc") == FallbackSession("abc") == "ses_tg_abc"
  {
    var rand: RandomSuffix := "abc";
    ClockTg();
    assert KeepAlnum(rand) == rand by {
      assert AllAlnum(rand);
    }
    var id := NewSessionId(1060, rand);
    assert id == SessionPrefix + ToRadix(1060, 36) + "_" + rand;
    assert id == "ses_tg_abc";
    assert FallbackSession(rand) == FallbackPrefix + rand;
  }

  /** The clock value 1060 is written `tg` in base 36. */
  lemma ClockTg()
    ensures ToRadix(1060, 36) == "tg"
  {
    assert ToRadix(29, 36) == "t";
    DivMod(1060, 36);
    assert 1060 / 36 == 29 && 1060 % 36 == 16;
  }

  /** Removing the first `.json` of a session file's name leaves its `ses_` prefix alone. */
  lemma ReplaceKeepsPrefix(file: string)
    requires IsSessionFile(file)
    ensures StartsWith(SessionName(file), SessionPrefix)
  {
    match Find(file, ".json")
    case None =>
    case Some(p) =>
      assert file[p..p + 5][0] == file[p];
      forall m | 0 <= m < 4
        ensures file[m] != '.'
      {
        assert file[m] == SessionPrefix[m];
      }
      assert SessionName(file)[..4] == file[..4];
  }

  /** The session file written by `createSession`. */
  datatype SessionRecord = SessionRecord(
    id: string,
    slug: string,
    title: string,
    projectId: string,
    directory: string,
    created: int,
    updated: int,
    messages: seq<string>)

  /**
   * The environment `createSession` reads: the clock for the id, for the record's
   * timestamps and for the slug (three separate readings), the random digits and the
   * working directory.
   */
  datatype Stamp = Stamp(idTime: nat, recordTime: nat, slugTime: nat, rand: RandomSuffix, cwd: string)

  /** The decimal form of `Date.now()` in the slug. */
  function Decimal(n: nat): (r: string)
    ensures IsDigitString(r, 10) && FromRadix(r, 10) == n
    ensures n == 0 || r[0] != '0'
  {
    RadixRoundTrip(n, 10);
    ToRadix(n, 10)
  }

  function SessionFileName(id: string): string
  {
    id + ".json"
  }

  /** The session map and the session files the bridge keeps, by file name. */
  datatype Store = Store(sessions: SessionMap, files: map<string, SessionRecord>)

  /** `createSession`: point the chat at a fresh id and write an empty session record for it. */
  function CreateSession(st: Store, chat: ChatId, stamp: Stamp): (r: (Store, string))
    ensures r.1 == NewSessionId(stamp.idTime, stamp.rand)
    ensures GetSession(r.0.sessions, chat) == r.1
    ensures forall c :: c != chat ==> GetSession(r.0.sessions, c) == GetSession(st.sessions, c)
    ensures SessionFileName(r.1) in r.0.files
    ensures var rec := r.0.files[SessionFileName(r.1)];
      && rec.id == r.1 && rec.title == "New Session" && rec.projectId == "global"
      && rec.directory == stamp.cwd && rec.created == rec.updated == stamp.recordTime
      && rec.messages == [] && rec.slug == "bot-" + Decimal(stamp.slugTime)
    ensures forall f :: f != SessionFileName(r.1) ==> (f in r.0.files <==> f in st.files)
    ensures forall f :: f != SessionFileName(r.1) && f in st.files ==> r.0.files[f] == st.files[f]
  {
    var id := NewSessionId(stamp.idTime, stamp.rand);
    var rec := SessionRecord(id, "bot-" + Decimal(stamp.slugTime), "New Session", "global",
                             stamp.cwd, stamp.recordTime, stamp.recordTime, []);
    (Store(st.sessions[chat := id], st.files[SessionFileName(id) := rec]), id)
  }

  /** A directory entry and the modification time `statSync` reports for it. */
  datatype DirEntry = DirEntry(name: string, mtime: int)

  predicate IsSessionFile(name: string)
  {
    StartsWith(name, SessionPrefix) && EndsWith(name, ".json")
  }

  /** `f.replace('.json', '')`: only the first occurrence goes. */
  function SessionName(file: string): string
  {
    ReplaceFirst(file, ".json", "")
  }

  /** The names the listing works on: session files in directory order, first `.json` removed. */
  function SessionNames(entries: seq<DirEntry>): (r: seq<string>)
    ensures |r| <= |entries|
    ensures forall k :: 0 <= k < |r| ==> StartsWith(r[k], SessionPrefix)
  {
    if entries == [] then []
    else
      var rest := SessionNames(entries[1..]);
      if IsSessionFile(entries[0].name) then
        ReplaceKeepsPrefix(entries[0].name);
        [SessionName(entries[0].name)] + rest
      else rest
  }

  /** The filter keeps directory order: the names of two runs of entries join in order. */
  lemma {:induction false} SessionNamesAppend(a: seq<DirEntry>, b: seq<DirEntry>)
    ensures SessionNames(a + b) == SessionNames(a) + SessionNames(b)
    decreases |a|
  {
    if a == [] {
      assert a + b == b;
    } else {
      assert (a + b)[0] == a[0];
      assert (a + b)[1..] == a[1..] + b;
      SessionNamesAppend(a[1..], b);
    }
  }

  /** One entry gives its name, first `.json` removed, exactly when it is a session file. */
  lemma SessionNamesOne(e: DirEntry)
    ensures SessionNames([e]) == if IsSessionFile(e.name) then [SessionName(e.name)] else []
  {
    assert [e][1..] == [];
  }

  /** A name is listed exactly when some session file in the directory yields it. */
  lemma {:induction false} SessionNamesMembers(entries: seq<DirEntry>, n: string)
    ensures n in SessionNames(entries) <==>
      exists k :: 0 <= k < |entries| && IsSessionFile(entries[k].name) && SessionName(entries[k].name) == n
  {
    if entries != [] {
      SessionNamesMembers(entries[1..], n);
      if exists k :: 0 <= k < |entries| && IsSessionFile(entries[k].name) && SessionName(entries[k].name) == n {
        var k :| 0 <= k < |entries| && IsSessionFile(entries[k].name) && SessionName(entries[k].name) == n;
        if k > 0 {
          assert entries[1..][k - 1] == entries[k];
        }
      }
      if exists k :: 0 <= k < |entries[1..]| && IsSessionFile(entries[1..][k].name) && SessionName(entries[1..][k].name) == n {
        var k :| 0 <= k < |entries[1..]| && IsSessionFile(entries[1..][k].name) && SessionName(entries[1..][k].name) == n;
        assert entries[k + 1] == entries[1..][k];
      }
    }
  }

  /** The modification time of the entry called `file`, or None where `statSync` throws. */
  function MTime(entries: seq<DirEntry>, file: string): (r: Option<int>)
    ensures r.None? <==> forall e :: e in entries ==> e.name != file
    ensures r.Some? ==> DirEntry(file, r.value) in entries
  {
    if entries == [] then None
    else if entries[0].name == file then Some(entries[0].mtime)
    else
      assert forall e :: e in entries[1..] ==> e in entries;
      MTime(entries[1..], file)
  }

  predicate AllStated(names: seq<string>, entries: seq<DirEntry>)
  {
    forall k :: 0 <= k < |names| ==> MTime(entries, SessionFileName(names[k])).Some?
  }

  /** A name to sort, its time, and its place in the unsorted list. */
  datatype Item = Item(name: string, mtime: int, pos: nat)

  /** `a` sorts strictly before `b`: newer first, equal times in their original order. */
  predicate Before(a: Item, b: Item)
  {
    a.mtime > b.mtime || (a.mtime == b.mtime && a.pos < b.pos)
  }

  predicate SortedItems(s: seq<Item>)
  {
    forall i, j :: 0 <= i < j < |s| ==> !Before(s[j], s[i])
  }

  function Names(s: seq<Item>): (r: seq<string>)
    ensures |r| == |s| && forall k :: 0 <= k < |s| ==> r[k] == s[k].name
  {
    seq(|s|, k requires 0 <= k < |s| => s[k].name)
  }

  function Insert(x: Item, s: seq<Item>): (r: seq<Item>)
    ensures multiset(r) == multiset(s) + multiset{x}
    ensures |r| == |s| + 1
    ensures s == [] ==> r == [x]
    ensures s != [] ==> r[0] == x || r[0] == s[0]
  {
    if s == [] then [x]
    else if !Before(s[0], x) then [x] + s
    else
      var rest := Insert(x, s[1..]);
      assert s == [s[0]] + s[1..];
      [s[0]] + rest
  }

  /** Inserting into a sorted list keeps it sorted. */
  lemma {:induction false} InsertSorted(x: Item, s: seq<Item>)
    requires SortedItems(s)
    ensures SortedItems(Insert(x, s))
  {
    if s != [] && Before(s[0], x) {
      var rest := Insert(x, s[1..]);
      InsertSorted(x, s[1..]);
      var r := Insert(x, s);
      assert r == [s[0]] + rest;
      forall i, j | 0 <= i < j < |r|
        ensures !Before(r[j], r[i])
      {
        if i == 0 {
          assert !Before(rest[0], s[0]);
          assert !Before(rest[j - 1], rest[0]);
        }
      }
    }
  }

  lemma NamesCons(x: Item, s: seq<Item>)
    ensures multiset(Names([x] + s)) == multiset{x.name} + multiset(Names(s))
  {
    assert Names([x] + s) == [x.name] + Names(s);
  }

  /** Inserting an item adds its name to the names, and nothing else. */
  lemma {:induction false} InsertNames(x: Item, s: seq<Item>)
    ensures multiset(Names(Insert(x, s))) == multiset(Names(s)) + multiset{x.name}
  {
    if s == [] || !Before(s[0], x) {
      assert Insert(x, s) == [x] + s;
      NamesCons(x, s);
    } else {
      var rest := Insert(x, s[1..]);
      assert Insert(x, s) == [s[0]] + rest;
      assert multiset(Names(rest)) == multiset(Names(s[1..])) + multiset{x.name} by {
        InsertNames(x, s[1..]);
      }
      assert multiset(Names(s)) == multiset{s[0].name} + multiset(Names(s[1..])) by {
        assert s == [s[0]] + s[1..];
        NamesCons(s[0], s[1..]);
      }
      NamesCons(s[0], rest);
    }
  }

  /**
   * The stable descending sort of the listing: the result is a permutation of the input,
   * newest first, and items with equal times keep their original order.
   */
  function SortItems(s: seq<Item>): (r: seq<Item>)
    ensures multiset(r) == multiset(s)
  {
    if s == [] then []
    else
      assert s == [s[0]] + s[1..];
      Insert(s[0], SortItems(s[1..]))
  }

  lemma {:induction false} SortSorted(s: seq<Item>)
    ensures SortedItems(SortItems(s))
  {
    if s != [] {
      SortSorted(s[1..]);
      InsertSorted(s[0], SortItems(s[1..]));
    }
  }

  /** The sort keeps the names, each as often as it occurs. */
  lemma {:induction false} SortNames(s: seq<Item>)
    ensures multiset(Names(SortItems(s))) == multiset(Names(s))
  {
    if s != [] {
      SortNames(s[1..]);
      InsertKeepsNames(s[0], SortItems(s[1..]), s[1..]);
      assert s == [s[0]] + s[1..];
    }
  }

  lemma InsertKeepsNames(x: Item, s: seq<Item>, t: seq<Item>)
    requires multiset(Names(s)) == multiset(Names(t))
    ensures multiset(Names(Insert(x, s))) == multiset(Names([x] + t))
  {
    InsertNames(x, s);
    NamesCons(x, t);
    AddOne(multiset(Names(Insert(x, s))), multiset(Names(s)), multiset(Names(t)), multiset(Names([x] + t)), x.name);
  }

  lemma AddOne<T>(m1: multiset<T>, m2: multiset<T>, m3: multiset<T>, m4: multiset<T>, x: T)
    requires m1 == m2 + multiset{x} && m2 == m3 && m4 == multiset{x} + m3
    ensures m1 == m4
  {
  }

  function Items(names: seq<string>, entries: seq<DirEntry>): (r: seq<Item>)
    requires AllStated(names, entries)
    ensures |r| == |names|
    ensures forall k :: 0 <= k < |r| ==> r[k] == Item(names[k], MTime(entries, SessionFileName(names[k])).value, k)
  {
    seq(|names|, k requires 0 <= k < |names| => Item(names[k], MTime(entries, SessionFileName(names[k])).value, k))
  }

  /**
   * `listSessions`. A directory that cannot be read gives the empty list; so does a name
   * whose `<name>.json` has no entry, as soon as the sort compares it (any list of two
   * or more names).
   */
  function ListSessions(dir: Option<seq<DirEntry>>): (r: seq<string>)
    ensures dir.None? ==> r == []
    ensures dir.Some? && |SessionNames(dir.value)| >= 2 && !AllStated(SessionNames(dir.value), dir.value) ==> r == []
    ensures dir.Some? && |SessionNames(dir.value)| < 2 ==> r == SessionNames(dir.value)
  {
    if dir.None? then []
    else
      var names := SessionNames(dir.value);
      if |names| < 2 then names
      else if !AllStated(names, dir.value) then []
      else Names(SortItems(Items(names, dir.value)))
  }

  /** Every name listed is a session id: it still starts with `ses_`. */
  lemma ListSessionsOnlySessions(dir: Option<seq<DirEntry>>)
    ensures forall k :: 0 <= k < |ListSessions(dir)| ==> StartsWith(ListSessions(dir)[k], SessionPrefix)
  {
    if dir.Some? && |SessionNames(dir.value)| >= 2 && AllStated(SessionNames(dir.value), dir.value) {
      var names := SessionNames(dir.value);
      var items := Items(names, dir.value);
      var sorted := SortItems(items);
      forall k | 0 <= k < |sorted|
        ensures StartsWith(sorted[k].name, SessionPrefix)
      {
        assert sorted[k] in multiset(items);
      }
    }
  }

  /**
   * When every name has its file, the listing holds exactly the session names, each as
   * often as it occurs, ordered by modification time, newest first.
   */
  lemma {:induction false} ListSessionsSorted(entries: seq<DirEntry>)
    requires AllStated(SessionNames(entries), entries)
    ensures multiset(ListSessions(Some(entries))) == multiset(SessionNames(entries))
    ensures var r := ListSessions(Some(entries));
      forall i, j :: 0 <= i < j < |r| ==>
        && MTime(entries, SessionFileName(r[i])).Some? && MTime(entries, SessionFileName(r[j])).Some?
        && MTime(entries, SessionFileName(r[i])).value >= MTime(entries, SessionFileName(r[j])).value
  {
    var names := SessionNames(entries);
    var r := ListSessions(Some(entries));
    if |names| >= 2 {
      var items := Items(names, entries);
      var sorted := SortItems(items);
      assert r == Names(sorted);
      assert multiset(r) == multiset(names) by {
        assert Names(items) == names;
        SortNames(items);
      }
      SortSorted(items);
      SortedTimes(names, entries, sorted);
      forall i, j | 0 <= i < j < |r|
        ensures MTime(entries, SessionFileName(r[i])) == Some(sorted[i].mtime)
        ensures MTime(entries, SessionFileName(r[j])) == Some(sorted[j].mtime)
        ensures sorted[i].mtime >= sorted[j].mtime
      {
        assert !Before(sorted[j], sorted[i]);
      }
    }
  }

  /** The items in any order still carry the modification times of their names' files. */
  lemma SortedTimes(names: seq<string>, entries: seq<DirEntry>, sorted: seq<Item>)
    requires AllStated(names, entries)
    requires multiset(sorted) == multiset(Items(names, entries))
    ensures forall k :: 0 <= k < |sorted| ==> MTime(entries, SessionFileName(sorted[k].name)) == Some(sorted[k].mtime)
  {
    var items := Items(names, entries);
    forall k | 0 <= k < |sorted|
      ensures MTime(entries, SessionFileName(sorted[k].name)) == Some(sorted[k].mtime)
    {
      assert sorted[k] in multiset(items);
      var j :| 0 <= j < |items| && items[j] == sorted[k];
    }
  }
}

=== FILE: strings.dfy ===
/**
 * The JavaScript string primitives the bridge and the Telegram adapter rely on:
 * `startsWith`, `endsWith`, `indexOf`, `replace` (first occurrence and global),
 * `split`, `trim`, `slice` and `Number.prototype.toString(radix)`.
 * Strings are sequences of characters; `Utf16Length` gives the length JavaScript
 * reports, where a character outside the Basic Multilingual Plane counts twice.
 */
module Strings {
  import opened Wrappers

  predicate StartsWith(s: string, p: string)
  {
    |p| <= |s| && s[..|p|] == p
  }

  predicate EndsWith(s: string, p: string)
  {
    |p| <= |s| && s[|s| - |p|..] == p
  }

  /** `t` occurs in `s` at index `i`. */
  predicate OccursAt(s: string, t: string, i: nat)
  {
    i + |t| <= |s| && s[i..i + |t|] == t
  }

  ghost predicate Occurs(s: string, t: string)
  {
    exists i: nat :: OccursAt(s, t, i)
  }

  /** The first index at or after `i` where `t` occurs (`indexOf`). */
  function FindFrom(s: string, t: string, i: nat): (r: Option<nat>)
    ensures r.Some? ==> i <= r.value && OccursAt(s, t, r.value)
    ensures r.Some? ==> forall j: nat :: i <= j < r.value ==> !OccursAt(s, t, j)
    ensures r.None? ==> forall j: nat :: i <= j ==> !OccursAt(s, t, j)
    decreases |s| - i
  {
    if i + |t| > |s| then None
    else if OccursAt(s, t, i) then Some(i)
    else FindFrom(s, t, i + 1)
  }

  function Find(s: string, t: string): (r: Option<nat>)
    ensures r.None? <==> !Occurs(s, t)
    ensures r.Some? ==> OccursAt(s, t, r.value) && forall j: nat :: j < r.value ==> !OccursAt(s, t, j)
  {
    FindFrom(s, t, 0)
  }

  /** An occurrence of `t` cuts `s` into what comes before, `t`, and what comes after. */
  lemma CutAround(s: string, t: string, i: nat)
    requires OccursAt(s, t, i)
    ensures s == s[..i] + t + s[i + |t|..]
  {
    assert s == s[..i] + s[i..i + |t|] + s[i + |t|..];
  }

  /** `s.replace(t, g)` with a string pattern: only the first occurrence is replaced. */
  function ReplaceFirst(s: string, t: string, g: string): (r: string)
    ensures !Occurs(s, t) ==> r == s
    ensures Occurs(s, t) ==> exists i: nat ::
      && OccursAt(s, t, i) && (forall j: nat :: j < i ==> !OccursAt(s, t, j))
      && r == s[..i] + g + s[i + |t|..]
  {
    match Find(s, t)
    case None => s
    case Some(i) => s[..i] + g + s[i + |t|..]
  }

  /** The first occurrence found by `indexOf` is the one at `i` when nothing before `i` starts with `t[0]`. */
  lemma FindAt(s: string, t: string, i: nat)
    requires OccursAt(s, t, i) && |t| > 0
    requires forall j :: 0 <= j < i ==> s[j] != t[0]
    ensures Find(s, t) == Some(i)
  {
    forall j: nat | j < i
      ensures !OccursAt(s, t, j)
    {
      if j + |t| <= |s| {
        assert s[j..j + |t|][0] == s[j];
      }
    }
  }

  lemma ReplaceFirstAt(s: string, t: string, g: string, i: nat)
    requires OccursAt(s, t, i) && |t| > 0
    requires forall j :: 0 <= j < i ==> s[j] != t[0]
    ensures ReplaceFirst(s, t, g) == s[..i] + g + s[i + |t|..]
  {
    FindAt(s, t, i);
  }

  /** `s.replace(/t/g, g)`: every leftmost, non-overlapping occurrence, scanning left to right. */
  function ReplaceAll(s: string, t: string, g: string): string
    requires |t| > 0
    decreases |s|
  {
    match Find(s, t)
    case None => s
    case Some(i) => s[..i] + g + ReplaceAll(s[i + |t|..], t, g)
  }

  /** No character of `t` appears in `g`. */
  predicate Disjoint(t: string, g: string)
  {
    forall k :: 0 <= k < |t| ==> t[k] !in g
  }

  /**
   * Gluing two pieces free of `t` around a non-empty `g` that shares no character
   * with `t` cannot create an occurrence of `t`.
   */
  lemma NoOccurrenceAcross(a: string, g: string, b: string, t: string)
    requires |t| > 0 && |g| > 0 && Disjoint(t, g)
    requires !Occurs(a, t) && !Occurs(b, t)
    ensures !Occurs(a + g + b, t)
  {
    var w := a + g + b;
    forall p: nat | p + |t| <= |w|
      ensures !OccursAt(w, t, p)
    {
      if p + |t| <= |a| {
        assert w[p..p + |t|] == a[p..p + |t|];
        assert !OccursAt(a, t, p);
      } else if p >= |a| + |g| {
        var p' := p - |a| - |g|;
        assert w[p..p + |t|] == b[p'..p' + |t|];
        assert !OccursAt(b, t, p');
      } else {
        // the window covers some position m of g, where t cannot have its character
        var m := if p < |a| then |a| else p;
        assert w[m] == g[m - |a|];
        assert t[m - p] !in g;
        assert w[p..p + |t|][m - p] != t[m - p];
      }
    }
  }

  /** A prefix of a string free of `t` is free of `t`. */
  lemma NoOccurrencePrefix(s: string, n: nat, t: string)
    requires n <= |s| && !Occurs(s, t)
    ensures !Occurs(s[..n], t)
  {
    forall p: nat | p + |t| <= n
      ensures !OccursAt(s[..n], t, p)
    {
      assert s[..n][p..p + |t|] == s[p..p + |t|];
      assert !OccursAt(s, t, p);
    }
  }

  /** A suffix of a string free of `t` is free of `t`. */
  lemma NoOccurrenceSuffix(s: string, n: nat, t: string)
    requires n <= |s| && !Occurs(s, t)
    ensures !Occurs(s[n..], t)
  {
    forall p: nat | p + |t| <= |s| - n
      ensures !OccursAt(s[n..], t, p)
    {
      assert s[n..][p..p + |t|] == s[n + p..n + p + |t|];
      assert !OccursAt(s, t, n + p);
    }
  }

  /** A one-character pattern occurs exactly where the character is. */
  lemma CharOccursAt(s: string, c: char, j: nat)
    requires j < |s|
    ensures OccursAt(s, [c], j) <==> s[j] == c
  {
    assert s[j..j + 1] == [s[j]];
  }

  /** After a global replace by a non-empty `g` sharing no character with `t`, `t` no longer occurs. */
  lemma {:induction false} ReplaceAllRemoves(s: string, t: string, g: string)
    requires |t| > 0 && |g| > 0 && Disjoint(t, g)
    ensures !Occurs(ReplaceAll(s, t, g), t)
    decreases |s|
  {
    match Find(s, t)
    case None =>
    case Some(i) =>
      ReplaceAllRemoves(s[i + |t|..], t, g);
      forall p: nat | p + |t| <= i
        ensures !OccursAt(s[..i], t, p)
      {
        assert p < i;
        assert !OccursAt(s, t, p);
        assert s[..i][p..p + |t|] == s[p..p + |t|];
      }
      NoOccurrenceAcross(s[..i], g, ReplaceAll(s[i + |t|..], t, g), t);
  }

  /** A global replace by `g` cannot create an occurrence of some other `u` that shares no character with `g`. */
  lemma {:induction false} ReplaceAllKeeps(s: string, t: string, g: string, u: string)
    requires |t| > 0 && |g| > 0 && |u| > 0 && Disjoint(u, g)
    requires !Occurs(s, u)
    ensures !Occurs(ReplaceAll(s, t, g), u)
    decreases |s|
  {
    match Find(s, t)
    case None =>
    case Some(i) =>
      NoOccurrenceSuffix(s, i + |t|, u);
      ReplaceAllKeeps(s[i + |t|..], t, g, u);
      NoOccurrencePrefix(s, i, u);
      NoOccurrenceAcross(s[..i], g, ReplaceAll(s[i + |t|..], t, g), u);
  }

  /** Number of UTF-16 code units JavaScript uses for the string (its `.length`). */
  function Utf16Length(s: string): nat
  {
    if s == [] then 0
    else (if s[0] as int > 0xFFFF then 2 else 1) + Utf16Length(s[1..])
  }

  lemma {:induction false} Utf16LengthAppend(a: string, b: string)
    ensures Utf16Length(a + b) == Utf16Length(a) + Utf16Length(b)
    decreases |a|
  {
    if a == [] {
      assert a + b == b;
    } else {
      assert (a + b)[1..] == a[1..] + b;
      Utf16LengthAppend(a[1..], b);
    }
  }

  /** Replacing a pattern by something no longer (in UTF-16 units) never lengthens the string. */
  lemma {:induction false} ReplaceAllShortens(s: string, t: string, g: string)
    requires |t| > 0 && Utf16Length(g) <= Utf16Length(t)
    ensures Utf16Length(ReplaceAll(s, t, g)) <= Utf16Length(s)
    decreases |s|
  {
    var f := Find(s, t);
    if f.Some? {
      var i := f.value;
      var rest := s[i + |t|..];
      var rr := ReplaceAll(rest, t, g);
      ReplaceAllShortens(rest, t, g);
      assert Utf16Length(s) == Utf16Length(s[..i]) + Utf16Length(t) + Utf16Length(rest) by {
        CutAround(s, t, i);
        Utf16LengthThree(s[..i], t, rest);
      }
      assert Utf16Length(ReplaceAll(s, t, g)) == Utf16Length(s[..i]) + Utf16Length(g) + Utf16Length(rr) by {
        assert ReplaceAll(s, t, g) == s[..i] + g + rr;
        Utf16LengthThree(s[..i], g, rr);
      }
    }
  }

  /** Dropping a prefix never adds UTF-16 units. */
  lemma Utf16LengthSuffix(s: string, i: nat, e: nat)
    requires i <= e <= |s|
    ensures Utf16Length(s[e..]) <= Utf16Length(s[i..])
  {
    assert s[i..] == s[i..e] + s[e..];
    Utf16LengthAppend(s[i..e], s[e..]);
  }

  lemma Utf16LengthThree(a: string, b: string, c: string)
    ensures Utf16Length(a + b + c) == Utf16Length(a) + Utf16Length(b) + Utf16Length(c)
  {
    Utf16LengthAppend(a, b);
    Utf16LengthAppend(a + b, c);
  }

  /** The index of the first `c` in `s`. */
  function IndexOf(s: string, c: char): (i: nat)
    requires c in s
    ensures i < |s| && s[i] == c && c !in s[..i]
  {
    if s[0] == c then 0
    else
      assert c in s[1..] by {
        var k :| 0 <= k < |s| && s[k] == c;
        assert s[1..][k - 1] == c;
      }
      var j := IndexOf(s[1..], c);
      assert s[..j + 1] == [s[0]] + s[1..][..j];
      j + 1
  }

  /** The fields of `s.split(sep)` for a one-character separator. */
  function Split(s: string, sep: char): (r: seq<string>)
    ensures |r| >= 1
    ensures forall k :: 0 <= k < |r| ==> sep !in r[k]
    decreases |s|
  {
    if sep !in s then [s]
    else
      var i := IndexOf(s, sep);
      [s[..i]] + Split(s[i + 1..], sep)
  }

  /** `parts.join(sep)`. */
  function Join(parts: seq<string>, sep: char): string
    requires |parts| >= 1
  {
    if |parts| == 1 then parts[0] else parts[0] + [sep] + Join(parts[1..], sep)
  }

  /** Splitting and joining again gives back the original string. */
  lemma {:induction false} SplitJoin(s: string, sep: char)
    ensures Join(Split(s, sep), sep) == s
    decreases |s|
  {
    if sep in s {
      var i := IndexOf(s, sep);
      var rest := Split(s[i + 1..], sep);
      SplitJoin(s[i + 1..], sep);
      assert Join(Split(s, sep), sep) == s[..i] + [sep] + Join(rest, sep) by {
        assert Split(s, sep) == [s[..i]] + rest;
        assert ([s[..i]] + rest)[1..] == rest;
      }
      assert s == s[..i] + [sep] + s[i + 1..];
    }
  }

  /** Splitting a string free of the separator yields the string itself as the only field. */
  lemma SplitNoSeparator(s: string, sep: char)
    requires sep !in s
    ensures Split(s, sep) == [s]
  {
  }

  /** The first field of `s` is its longest separator-free prefix. */
  lemma SplitHead(s: string, sep: char)
    ensures StartsWith(s, Split(s, sep)[0])
    ensures |Split(s, sep)[0]| < |s| ==> s[|Split(s, sep)[0]|] == sep
  {
  }

  /** The last field of `s.split(sep)`, what `pop()` takes off it. */
  function LastField(s: string, sep: char): (r: string)
    ensures sep !in r
  {
    var parts := Split(s, sep);
    parts[|parts| - 1]
  }

  /** The last field of `s` is its longest separator-free suffix. */
  lemma SplitLast(s: string, sep: char)
    ensures EndsWith(s, LastField(s, sep))
    ensures |LastField(s, sep)| < |s| ==> s[|s| - |LastField(s, sep)| - 1] == sep
  {
    var parts := Split(s, sep);
    assert LastField(s, sep) == parts[|parts| - 1];
    assert Join(parts, sep) == s by { SplitJoin(s, sep); }
    JoinLastOf(s, parts, sep);
  }

  /** `JoinLast`, for a string known to be the join. */
  lemma JoinLastOf(s: string, parts: seq<string>, sep: char)
    requires |parts| >= 1 && Join(parts, sep) == s
    ensures var f := parts[|parts| - 1];
      EndsWith(s, f) && (|f| < |s| ==> s[|s| - |f| - 1] == sep)
  {
    JoinLast(parts, sep);
  }

  /** A joined string ends with the last part, preceded by the separator when there are several parts. */
  lemma {:induction false} JoinLast(parts: seq<string>, sep: char)
    requires |parts| >= 1
    ensures var f := parts[|parts| - 1];
      var j := Join(parts, sep);
      EndsWith(j, f) && (|parts| == 1 ==> j == f) && (|parts| >= 2 ==> |f| < |j| && j[|j| - |f| - 1] == sep)
    decreases |parts|
  {
    if |parts| >= 2 {
      var rest := parts[1..];
      var f := parts[|parts| - 1];
      var j := Join(parts, sep);
      var jr := Join(rest, sep);
      JoinLast(rest, sep);
      assert rest[|rest| - 1] == f;
      assert j == parts[0] + [sep] + jr;
      assert j[|j| - |jr|..] == jr;
      assert j[|j| - |f|..] == jr[|jr| - |f|..];
      if |rest| == 1 {
        assert j[|j| - |f| - 1] == sep;
      } else {
        assert j[|j| - |f| - 1] == jr[|jr| - |f| - 1];
      }
    }
  }

  /** Two separator-free suffixes of `s`, each all of `s` or preceded by the separator, are the same. */
  lemma SameLastField(s: string, sep: char, v: string, w: string)
    requires sep !in v && sep !in w
    requires EndsWith(s, v) && (|v| < |s| ==> s[|s| - |v| - 1] == sep)
    requires EndsWith(s, w) && (|w| < |s| ==> s[|s| - |w| - 1] == sep)
    ensures v == w
  {
  }

  /** The fields of `p + sep + v` are `p` followed by the fields of `v`, when `p` has no separator. */
  lemma SplitAfterPrefix(p: string, sep: char, v: string)
    requires sep !in p
    ensures Split(p + [sep] + v, sep) == [p] + Split(v, sep)
  {
    var s := p + [sep] + v;
    assert s[|p|] == sep;
    var i := IndexOf(s, sep);
    assert s[..|p|] == p && s[|p| + 1..] == v;
  }

  /** `s.slice(0, n)`: the first `n` characters, or all of them when there are fewer. */
  function Take(s: string, n: nat): (r: string)
    ensures |r| == if |s| < n then |s| else n
    ensures StartsWith(s, r)
  {
    if |s| < n then s else s[..n]
  }

  /** `s.slice(-n)` for positive `n`: the last `n` characters, or all of them when there are fewer. */
  function TakeLast(s: string, n: nat): (r: string)
    ensures |r| == if |s| < n then |s| else n
    ensures EndsWith(s, r)
  {
    if |s| < n then s else s[|s| - n..]
  }

  /** The characters `String.prototype.trim` removes: ECMAScript WhiteSpace and LineTerminator. */
  predicate IsJsSpace(c: char)
  {
    || c == '\t' || c == '\n' || c == '\U{0B}' || c == '\U{0C}' || c == '\r' || c == ' '
    || c == '\U{A0}' || c == '\U{1680}' || ('\U{2000}' <= c <= '\U{200A}')
    || c == '\U{2028}' || c == '\U{2029}' || c == '\U{202F}' || c == '\U{205F}'
    || c == '\U{3000}' || c == '\U{FEFF}'
  }

  predicate AllSpace(s: string)
  {
    forall k :: 0 <= k < |s| ==> IsJsSpace(s[k])
  }

  function LeadingSpace(s: string): (n: nat)
    ensures n <= |s| && AllSpace(s[..n])
    ensures n < |s| ==> !IsJsSpace(s[n])
  {
    if s == [] || !IsJsSpace(s[0]) then 0
    else
      var n := 1 + LeadingSpace(s[1..]);
      assert s[..n] == [s[0]] + s[1..][..n - 1];
      n
  }

  function TrailingSpace(s: string): (n: nat)
    ensures n <= |s| && AllSpace(s[|s| - n..])
    ensures n < |s| ==> !IsJsSpace(s[|s| - n - 1])
  {
    if s == [] || !IsJsSpace(s[|s| - 1]) then 0
    else
      var m := TrailingSpace(s[..|s| - 1]);
      var t := s[|s| - m - 1..];
      assert AllSpace(t) by {
        forall k | 0 <= k < |t|
          ensures IsJsSpace(t[k])
        {
          if k < m {
            assert t[k] == s[..|s| - 1][|s| - 1 - m..][k];
          }
        }
      }
      m + 1
  }

  /** `s.trim()`: `s` with its leading and trailing white space removed, nothing else. */
  function Trim(s: string): (r: string)
    ensures exists i, j :: 0 <= i <= j <= |s| && r == s[i..j] && AllSpace(s[..i]) && AllSpace(s[j..])
    ensures r != [] ==> !IsJsSpace(r[0]) && !IsJsSpace(r[|r| - 1])
  {
    var i := LeadingSpace(s);
    var rest := s[i..];
    var n := TrailingSpace(rest);
    var j := i + |rest| - n;
    assert rest[..|rest| - n] == s[i..j];
    assert rest[|rest| - n..] == s[j..];
    s[i..j]
  }

  /** The digit character for `d` in bases up to 36, lower-case as `toString(radix)` writes it. */
  function DigitChar(d: nat): char
    requires d < 36
  {
    if d < 10 then ('0' as int + d) as char else ('a' as int + d - 10) as char
  }

  /** The value of a digit character in the given base, if it is one. */
  function DigitValue(c: char, base: nat): Option<nat>
  {
    if '0' <= c <= '9' && (c as int - '0' as int) < base then Some(c as int - '0' as int)
    else if 'a' <= c <= 'z' && (c as int - 'a' as int + 10) < base then Some(c as int - 'a' as int + 10)
    else None
  }

  predicate IsDigitString(s: string, base: nat)
  {
    forall k :: 0 <= k < |s| ==> DigitValue(s[k], base).Some?
  }

  /** `n.toString(base)` for a non-negative integer. */
  function ToRadix(n: nat, base: nat): (r: string)
    requires 2 <= base <= 36
    ensures |r| >= 1 && IsDigitString(r, base)
    ensures n == 0 || r[0] != '0'
    decreases n
  {
    if n < base then
      DigitRoundTrip(n, base);
      [DigitChar(n)]
    else
      DivMod(n, base);
      DigitRoundTrip(n % base, base);
      ToRadix(n / base, base) + [DigitChar(n % base)]
  }

  lemma DivMod(n: nat, base: nat)
    requires 2 <= base <= n
    ensures n / base < n && n % base < base
    ensures n == (n / base) * base + n % base
  {
  }

  /** The value of a string of digits in the given base (the inverse of `ToRadix`). */
  function FromRadix(s: string, base: nat): nat
    requires IsDigitString(s, base)
  {
    if s == [] then 0
    else FromRadix(s[..|s| - 1], base) * base + DigitValue(s[|s| - 1], base).value
  }

  lemma DigitRoundTrip(d: nat, base: nat)
    requires d < base <= 36
    ensures DigitValue(DigitChar(d), base) == Some(d)
  {
  }

  lemma LastDigit(front: string, d: nat, base: nat)
    requires IsDigitString(front, base) && d < base <= 36
    ensures IsDigitString(front + [DigitChar(d)], base)
    ensures FromRadix(front + [DigitChar(d)], base) == FromRadix(front, base) * base + d
  {
    DigitRoundTrip(d, base);
    var s := front + [DigitChar(d)];
    assert s[..|s| - 1] == front;
  }

  lemma RadixStep(n: nat, q: nat, d: nat, base: nat)
    requires 2 <= base <= 36 && d < base && n == q * base + d
    requires ToRadix(n, base) == ToRadix(q, base) + [DigitChar(d)]
    requires FromRadix(ToRadix(q, base), base) == q
    ensures FromRadix(ToRadix(n, base), base) == n
  {
    LastDigit(ToRadix(q, base), d, base);
  }

  lemma RadixBase(n: nat, base: nat)
    requires 2 <= base <= 36 && n < base
    ensures FromRadix(ToRadix(n, base), base) == n
  {
    var s := ToRadix(n, base);
    DigitRoundTrip(n, base);
    assert s[..0] == [];
  }

  /** Reading back what `toString(base)` wrote gives the number again. */
  lemma {:induction false} RadixRoundTrip(n: nat, base: nat)
    requires 2 <= base <= 36
    ensures FromRadix(ToRadix(n, base), base) == n
    decreases n
  {
    if n < base {
      RadixBase(n, base);
    } else {
      DivMod(n, base);
      RadixRoundTrip(n / base, base);
      RadixStep(n, n / base, n % base, base);
    }
  }
}

=== FILE: supervisor.dfy ===
/**
 * The process registry of the bridge (src/core/bridge.js:39-47, 132-164) as a state
 * machine. `_spawn` stops whatever the chat is running, starts a pseudo-terminal process,
 * registers it under the chat and arms a ten-minute watchdog. The process then reports
 * output chunks and, once, its exit; the watchdog fires once. Each of these is an event
 * here; what the code does to the outside world (killing a process, pushing a formatted
 * snapshot to the adapter, resolving the promise) is an effect.
 *
 * A handle stands for the process object: handles are never reused, so comparing
 * handles is the `===` test of the watchdog.
 */
module Supervisor {
  import opened Wrappers
  import Format
  import Sessions

  type ChatId = Sessions.ChatId

  /** The watchdog delay of `_spawn`, in milliseconds: ten minutes. */
  const WatchdogMs: nat := 600000

  type Handle = nat

  /**
   * One spawned process: its chat, its argument vector, the raw output so far, when its
   * watchdog fires, whether the adapter takes stream updates, and whether it has exited
   * and its watchdog has fired.
   */
  datatype Proc = Proc(
    chat: ChatId,
    args: seq<string>,
    output: string,
    deadline: int,
    streams: bool,
    exited: bool,
    timerFired: bool)

  /** `activeProcesses`, plus every process ever spawned and the next fresh handle. */
  datatype Registry = Registry(active: map<ChatId, Handle>, procs: map<Handle, Proc>, next: Handle)

  datatype Effect =
    | Kill(h: Handle)
    | Stream(chat: ChatId, text: string)
    | Resolve(h: Handle, output: string, exitCode: int)

  const Empty: Registry := Registry(map[], map[], 0)

  /** Registered processes belong to their chat and are still running; handles are fresh from `next` on. */
  predicate Valid(reg: Registry)
  {
    && (forall c :: c in reg.active ==>
          && reg.active[c] in reg.procs
          && reg.procs[reg.active[c]].chat == c
          && !reg.procs[reg.active[c]].exited)
    && (forall h :: h in reg.procs ==> h < reg.next)
  }

  lemma EmptyValid()
    ensures Valid(Empty)
  {
  }

  /** The registry entries of every chat but `chat` are the same in both registries. */
  ghost predicate OthersUnchanged(a: map<ChatId, Handle>, b: map<ChatId, Handle>, chat: ChatId)
  {
    forall c :: c != chat ==> (c in a <==> c in b) && (c in a ==> a[c] == b[c])
  }

  /** `stopProcess`: kill and unregister the chat's process; report whether there was one. */
  function StopProcess(reg: Registry, chat: ChatId): (r: (Registry, bool, seq<Effect>))
    ensures r.1 <==> chat in reg.active
    ensures chat !in r.0.active
    ensures r.2 == if chat in reg.active then [Kill(reg.active[chat])] else []
    ensures OthersUnchanged(r.0.active, reg.active, chat)
    ensures r.0.procs == reg.procs && r.0.next == reg.next
    ensures Valid(reg) ==> Valid(r.0)
  {
    if chat in reg.active then (reg.(active := reg.active - {chat}), true, [Kill(reg.active[chat])])
    else (reg, false, [])
  }

  /** A second `stopProcess` right after the first finds nothing and does nothing. */
  lemma StopTwice(reg: Registry, chat: ChatId)
    ensures var r1 := StopProcess(reg, chat).0;
      StopProcess(r1, chat) == (r1, false, [])
  {
  }

  /**
   * `_spawn` up to the point where it waits: stop the chat's process, start a new one with
   * an empty buffer and a watchdog `WatchdogMs` after `now`, register it under the chat.
   */
  function Spawn(reg: Registry, chat: ChatId, args: seq<string>, now: int, streams: bool): (r: (Registry, Handle, seq<Effect>))
    ensures r.0.active.Keys == reg.active.Keys + {chat} && r.0.active[chat] == r.1
    ensures OthersUnchanged(r.0.active, reg.active, chat)
    ensures r.2 == if chat in reg.active then [Kill(reg.active[chat])] else []
    ensures r.1 in r.0.procs && r.0.procs[r.1] == Proc(chat, args, "", now + WatchdogMs, streams, false, false)
    ensures Valid(reg) ==> r.1 !in reg.procs && Valid(r.0)
    ensures Valid(reg) ==> forall h :: h in reg.procs ==> h in r.0.procs && r.0.procs[h] == reg.procs[h]
  {
    var (stopped, _, kills) := StopProcess(reg, chat);
    var h := stopped.next;
    var p := Proc(chat, args, "", now + WatchdogMs, streams, false, false);
    (Registry(stopped.active[chat := h], stopped.procs[h := p], h + 1), h, kills)
  }

  /**
   * `onData`: append the chunk to the buffer and, when the adapter streams, push the
   * formatted whole buffer. The listener stays attached after the exit, so a chunk that
   * arrives then is appended and streamed as well.
   */
  function OnData(reg: Registry, h: Handle, chunk: string): (r: (Registry, seq<Effect>))
    ensures r.0.active == reg.active && r.0.next == reg.next && r.0.procs.Keys == reg.procs.Keys
    ensures h in reg.procs ==>
      && r.0.procs[h] == reg.procs[h].(output := reg.procs[h].output + chunk)
      && r.1 == (if reg.procs[h].streams then [Stream(reg.procs[h].chat, Format.Format(r.0.procs[h].output))] else [])
    ensures h !in reg.procs ==> r == (reg, [])
    ensures forall g :: g in reg.procs && g != h ==> r.0.procs[g] == reg.procs[g]
    ensures Valid(reg) ==> Valid(r.0)
  {
    if h in reg.procs then
      var p := reg.procs[h];
      var out := p.output + chunk;
      (reg.(procs := reg.procs[h := p.(output := out)]), if p.streams then [Stream(p.chat, Format.Format(out))] else [])
    else (reg, [])
  }

  /**
   * `onExit`: delete the chat's registry entry, whichever process it names, and resolve
   * with the raw buffer and the exit code.
   */
  function OnExit(reg: Registry, h: Handle, code: int): (r: (Registry, seq<Effect>))
    ensures h in reg.procs && !reg.procs[h].exited ==>
      && r.0.active == reg.active - {reg.procs[h].chat}
      && r.0.procs == reg.procs[h := reg.procs[h].(exited := true)]
      && r.1 == [Resolve(h, reg.procs[h].output, code)]
    ensures !(h in reg.procs && !reg.procs[h].exited) ==> r == (reg, [])
    ensures r.0.next == reg.next
    ensures Valid(reg) ==> Valid(r.0)
  {
    if h in reg.procs && !reg.procs[h].exited then
      var p := reg.procs[h];
      (Registry(reg.active - {p.chat}, reg.procs[h := p.(exited := true)], reg.next), [Resolve(h, p.output, code)])
    else (reg, [])
  }

  /** The watchdog of `h` fires at `now`: it does so once, when its deadline has come. */
  predicate Due(reg: Registry, h: Handle, now: int)
  {
    h in reg.procs && !reg.procs[h].timerFired && now >= reg.procs[h].deadline
  }

  /** The watchdog callback: kill the process only if the chat's entry still names it. */
  function OnTimeout(reg: Registry, h: Handle, now: int): (r: (Registry, seq<Effect>))
    ensures r.0.active == reg.active && r.0.next == reg.next && r.0.procs.Keys == reg.procs.Keys
    ensures Due(reg, h, now) ==> r.0.procs[h] == reg.procs[h].(timerFired := true)
    ensures !Due(reg, h, now) ==> r == (reg, [])
    ensures forall g :: g in reg.procs && g != h ==> r.0.procs[g] == reg.procs[g]
    ensures Valid(reg) ==> Valid(r.0)
  {
    if Due(reg, h, now) then
      var p := reg.procs[h];
      var fired := reg.(procs := reg.procs[h := p.(timerFired := true)]);
      if p.chat in reg.active && reg.active[p.chat] == h then (fired, [Kill(h)]) else (fired, [])
    else (reg, [])
  }

  /** The watchdog kills exactly when it is due and the chat's entry is still this very process. */
  lemma WatchdogChecksIdentity(reg: Registry, h: Handle, now: int)
    ensures OnTimeout(reg, h, now).1 == [Kill(h)] <==>
      Due(reg, h, now) && reg.procs[h].chat in reg.active && reg.active[reg.procs[h].chat] == h
    ensures OnTimeout(reg, h, now).1 == [] <==>
      !(Due(reg, h, now) && reg.procs[h].chat in reg.active && reg.active[reg.procs[h].chat] == h)
  {
  }

  /** A watchdog fires once: after it has fired, it never does anything again. */
  lemma WatchdogFiresOnce(reg: Registry, h: Handle, now: int, later: int)
    requires Due(reg, h, now)
    ensures var r1 := OnTimeout(reg, h, now).0;
      OnTimeout(r1, h, later) == (r1, [])
  {
  }

  datatype Event =
    | SpawnEvent(chat: ChatId, args: seq<string>, now: int, streams: bool)
    | DataEvent(h: Handle, chunk: string)
    | ExitEvent(h: Handle, code: int)
    | TimeoutEvent(h: Handle, now: int)
    | StopEvent(chat: ChatId)

  function Step(reg: Registry, ev: Event): (r: (Registry, seq<Effect>))
    ensures Valid(reg) ==> Valid(r.0)
  {
    match ev
    case SpawnEvent(chat, args, now, streams) =>
      var (reg', _, effects) := Spawn(reg, chat, args, now, streams);
      (reg', effects)
    case DataEvent(h, chunk) => OnData(reg, h, chunk)
    case ExitEvent(h, code) => OnExit(reg, h, code)
    case TimeoutEvent(h, now) => OnTimeout(reg, h, now)
    case StopEvent(chat) =>
      var (reg', _, effects) := StopProcess(reg, chat);
      (reg', effects)
  }

  function Run(reg: Registry, events: seq<Event>): (r: (Registry, seq<Effect>))
    ensures Valid(reg) ==> Valid(r.0)
    decreases |events|
  {
    if events == [] then (reg, [])
    else
      var (reg1, e1) := Step(reg, events[0]);
      var (reg2, e2) := Run(reg1, events[1..]);
      (reg2, e1 + e2)
  }

  /** The chunks the process `h` reports in `events`, in order. */
  function Delivered(events: seq<Event>, h: Handle): string
  {
    if events == [] then ""
    else match events[0]
      case DataEvent(g, chunk) => (if g == h then chunk else "") + Delivered(events[1..], h)
      case _ => Delivered(events[1..], h)
  }

  predicate NoExit(events: seq<Event>, h: Handle)
  {
    forall k :: 0 <= k < |events| ==> !(events[k].ExitEvent? && events[k].h == h)
  }

  /**
   * One step leaves the buffer of a known process `h` extended by what the step delivers
   * to it, exited or not; only its own exit event marks it exited.
   */
  lemma StepBuffer(reg: Registry, ev: Event, h: Handle)
    requires Valid(reg) && h in reg.procs
    ensures var r := Step(reg, ev).0;
      && h in r.procs
      && r.procs[h].output == reg.procs[h].output + (if ev.DataEvent? && ev.h == h then ev.chunk else "")
      && (r.procs[h].exited <==> reg.procs[h].exited || (ev.ExitEvent? && ev.h == h))
      && r.procs[h].chat == reg.procs[h].chat && r.procs[h].streams == reg.procs[h].streams
  {
  }

  /**
   * The buffer of a process is the concatenation of every chunk it delivered, in order:
   * after any sequence of events the buffer has grown by exactly the chunks reported for
   * it, those that arrive after its exit included.
   */
  lemma {:induction false} BufferIsConcatenation(reg: Registry, events: seq<Event>, h: Handle)
    requires Valid(reg) && h in reg.procs
    ensures var r := Run(reg, events).0;
      && h in r.procs && r.procs[h].output == reg.procs[h].output + Delivered(events, h)
      && r.procs[h].chat == reg.procs[h].chat && r.procs[h].streams == reg.procs[h].streams
    decreases |events|
  {
    if events != [] {
      var reg1 := Step(reg, events[0]).0;
      RunCons(reg, events);
      DeliveredCons(events, h);
      StepBuffer(reg, events[0], h);
      BufferIsConcatenation(reg1, events[1..], h);
      var d := if events[0].DataEvent? && events[0].h == h then events[0].chunk else "";
      Assoc(reg.procs[h].output, d, Delivered(events[1..], h));
    }
  }

  /** A step that is not the first exit of `h` resolves nothing for `h`. */
  lemma StepNoResolve(reg: Registry, ev: Event, h: Handle)
    requires h in reg.procs && reg.procs[h].exited
    ensures forall e :: e in Step(reg, ev).1 ==> !(e.Resolve? && e.h == h)
  {
  }

  /**
   * The promise settles once, at the exit: once `h` has exited no event resolves it again,
   * so the output it was resolved with is the buffer's snapshot at the exit, whatever
   * chunks the buffer takes afterwards.
   */
  lemma {:induction false} ResolvedOnce(reg: Registry, events: seq<Event>, h: Handle)
    requires Valid(reg) && h in reg.procs && reg.procs[h].exited
    ensures forall e :: e in Run(reg, events).1 ==> !(e.Resolve? && e.h == h)
    decreases |events|
  {
    if events != [] {
      var reg1 := Step(reg, events[0]).0;
      RunCons(reg, events);
      StepNoResolve(reg, events[0], h);
      StepBuffer(reg, events[0], h);
      ResolvedOnce(reg1, events[1..], h);
    }
  }

  lemma Assoc(a: string, b: string, c: string)
    ensures (a + b) + c == a + (b + c)
  {
  }

  lemma DeliveredCons(events: seq<Event>, h: Handle)
    requires events != []
    ensures Delivered(events, h) ==
      (if events[0].DataEvent? && events[0].h == h then events[0].chunk else "") + Delivered(events[1..], h)
  {
  }

  lemma RunCons(reg: Registry, events: seq<Event>)
    requires events != []
    ensures Run(reg, events) == (Run(Step(reg, events[0]).0, events[1..]).0,
                                 Step(reg, events[0]).1 + Run(Step(reg, events[0]).0, events[1..]).1)
  {
  }

  /**
   * A process that runs from spawn to exit resolves with exactly the chunks it delivered:
   * the promise's `output` is the raw concatenation, not the formatted text.
   */
  lemma ResolvesWithEverything(reg: Registry, chat: ChatId, args: seq<string>, now: int, streams: bool,
                               events: seq<Event>, code: int)
    requires Valid(reg)
    ensures var (spawned, h, _) := Spawn(reg, chat, args, now, streams);
      var before := Run(spawned, events).0;
      NoExit(events, h) ==> OnExit(before, h, code).1 == [Resolve(h, Delivered(events, h), code)]
  {
    var (spawned, h, _) := Spawn(reg, chat, args, now, streams);
    if NoExit(events, h) {
      BufferIsConcatenation(spawned, events, h);
      NoExitKeepsRunning(spawned, events, h);
      assert "" + Delivered(events, h) == Delivered(events, h);
    }
  }

  /**
   * Each chunk of a streaming process pushes the formatted text of everything it has
   * delivered since its spawn, this chunk included, to its chat, before or after its exit.
   */
  lemma StreamShowsEverything(reg: Registry, chat: ChatId, args: seq<string>, now: int,
                              events: seq<Event>, chunk: string)
    requires Valid(reg)
    ensures var (spawned, h, _) := Spawn(reg, chat, args, now, true);
      var before := Run(spawned, events).0;
      OnData(before, h, chunk).1 == [Stream(chat, Format.Format(Delivered(events, h) + chunk))]
  {
    var (spawned, h, _) := Spawn(reg, chat, args, now, true);
    BufferIsConcatenation(spawned, events, h);
    assert "" + Delivered(events, h) == Delivered(events, h);
  }

  /**
   * A chunk that arrives after the exit still reaches the buffer and the chat's stream,
   * while the promise has already settled with the buffer as it was at the exit.
   */
  lemma LateChunkStreams(reg: Registry, chat: ChatId, args: seq<string>, now: int, code: int, chunk: string)
    requires Valid(reg)
    ensures var (spawned, h, _) := Spawn(reg, chat, args, now, true);
      var (exited, resolved) := OnExit(spawned, h, code);
      var (after, streamed) := OnData(exited, h, chunk);
      && resolved == [Resolve(h, "", code)]
      && chat !in after.active
      && after.procs[h].output == chunk
      && streamed == [Stream(chat, Format.Format(chunk))]
  {
    var (spawned, h, _) := Spawn(reg, chat, args, now, true);
    assert "" + chunk == chunk;
  }

  lemma {:induction false} NoExitKeepsRunning(reg: Registry, events: seq<Event>, h: Handle)
    requires Valid(reg) && h in reg.procs && !reg.procs[h].exited && NoExit(events, h)
    ensures var r := Run(reg, events).0;
      && h in r.procs && !r.procs[h].exited
      && r.procs[h].chat == reg.procs[h].chat && r.procs[h].streams == reg.procs[h].streams
    decreases |events|
  {
    if events != [] {
      RunCons(reg, events);
      StepBuffer(reg, events[0], h);
      assert !(events[0].ExitEvent? && events[0].h == h);
      NoExitKeepsRunning(Step(reg, events[0]).0, events[1..], h);
    }
  }

  /**
   * `_spawn` replaces: the chat's previous process is killed, and the chat's entry names
   * the new process, which is fresh.
   */
  lemma SpawnReplaces(reg: Registry, chat: ChatId, args: seq<string>, now: int, streams: bool)
    requires Valid(reg) && chat in reg.active
    ensures var (r, h, effects) := Spawn(reg, chat, args, now, streams);
      && effects == [Kill(reg.active[chat])]
      && r.active[chat] == h && h != reg.active[chat]
  {
  }

  /**
   * The exit of a process deletes its chat's entry whichever process the entry names;
   * every other chat keeps its entry.
   */
  lemma ExitDeletesUnconditionally(reg: Registry, h: Handle, code: int)
    requires h in reg.procs && !reg.procs[h].exited
    ensures var r := OnExit(reg, h, code).0;
      && reg.procs[h].chat !in r.active
      && OthersUnchanged(r.active, reg.active, reg.procs[h].chat)
  {
  }

  /**
   * The replaced process exits after its replacement is registered (the kill only sends a
   * signal), and its exit unregisters the replacement: from then on the replacement, still
   * running, cannot be stopped and its watchdog no longer kills it.
   */
  lemma StaleExitOrphansReplacement(reg: Registry, chat: ChatId, a1: seq<string>, a2: seq<string>,
                                    t1: int, t2: int, code: int, later: int)
    requires Valid(reg)
    ensures
      var (r1, h1, _) := Spawn(reg, chat, a1, t1, true);
      var (r2, h2, kills) := Spawn(r1, chat, a2, t2, true);
      var r3 := OnExit(r2, h1, code).0;
      && kills == [Kill(h1)]
      && h2 in r3.procs && !r3.procs[h2].exited
      && StopProcess(r3, chat).1 == false
      && OnTimeout(r3, h2, later).1 == []
  {
  }
}

=== FILE: telegram.dfy ===
/**
 * The Telegram adapter (src/adapters/telegram.js) over the bridge: decoding of inline
 * button data into actions, the slash filter on plain messages, the menus and their
 * buttons, and the text it puts into the messages it edits while a run streams and
 * when a command finishes. Telegram itself is left out: a reply is represented by the
 * message id it produced, an edit by the `Edit` it asks for.
 */
module Telegram {
  import opened Wrappers
  import opened Strings
  import Sessions
  import Supervisor
  import Bridge

  type ChatId = Sessions.ChatId
  type MessageId = nat

  /** What the data of an inline button asks for. */
  datatype Action =
    | ShowPage(page: string)
    | ChooseModel(model: string)
    | ChooseAgent(agent: Option<string>)
    | SwitchSession(id: string)
    | NewSession
    | RunTool(command: string)
    | Ignore

  /** `data.split(':')[1]` for data that starts with `name:`: the text between the first and the second colon. */
  function Value(data: string, name: string): (v: string)
    requires ':' !in name && StartsWith(data, name + ":")
    ensures ':' !in v
    ensures data == name + ":" + v || StartsWith(data, name + ":" + v + ":")
  {
    SecondField(data, name);
    Split(data, ':')[1]
  }

  lemma SecondField(data: string, name: string)
    requires ':' !in name && StartsWith(data, name + ":")
    ensures |Split(data, ':')| >= 2
    ensures var v := Split(data, ':')[1];
      ':' !in v && (data == name + ":" + v || StartsWith(data, name + ":" + v + ":"))
  {
    var rest := data[|name| + 1..];
    var v := Split(rest, ':')[0];
    assert |Split(data, ':')| >= 2 && Split(data, ':')[1] == v by {
      assert data == name + [':'] + rest by {
        assert data[..|name| + 1] == name + ":";
      }
      SplitAfterPrefix(name, ':', rest);
    }
    assert ':' !in v && StartsWith(rest, v) && (|v| < |rest| ==> rest[|v|] == ':') by {
      SplitHead(rest, ':');
    }
    FieldTail(data, name, v);
  }

  /** What follows `name:` up to the next colon, or to the end, sits between `name:` and that colon. */
  lemma FieldTail(data: string, name: string, v: string)
    requires StartsWith(data, name + ":")
    requires StartsWith(data[|name| + 1..], v)
    requires |v| < |data[|name| + 1..]| ==> data[|name| + 1..][|v|] == ':'
    ensures data == name + ":" + v || StartsWith(data, name + ":" + v + ":")
  {
    var rest := data[|name| + 1..];
    assert data == data[..|name| + 1] + rest;
    if |v| < |rest| {
      assert data[..|name| + 2 + |v|] == name + ":" + v + ":" by {
        assert rest[..|v|] == v;
        assert data[|name| + 1 + |v|] == rest[|v|];
      }
    } else {
      assert rest == v by {
        assert rest[..|v|] == v;
      }
    }
  }

  /** `handleCallback`'s router: the first of `nav:`, `model:`, `agent:`, `sess:`, exactly `act:new`, `cmd:` that matches. */
  function Decode(data: string): (r: Action)
    ensures r != Ignore ==> Encodable(r)
    ensures r == NewSession ==> data == "act:new"
  {
    if StartsWith(data, "nav:") then ShowPage(Value(data, "nav"))
    else if StartsWith(data, "model:") then ChooseModel(Value(data, "model"))
    else if StartsWith(data, "agent:") then
      var agent := Value(data, "agent");
      ChooseAgent(if agent == "null" then None else Some(agent))
    else if StartsWith(data, "sess:") then SwitchSession(Value(data, "sess"))
    else if data == "act:new" then NewSession
    else if StartsWith(data, "cmd:") then RunTool(Value(data, "cmd"))
    else Ignore
  }

  /** The data of the button that asks for `a`, as the menus write it. */
  function Encode(a: Action): string
  {
    match a
    case ShowPage(page) => "nav:" + page
    case ChooseModel(model) => "model:" + model
    case ChooseAgent(agent) => "agent:" + (if agent.Some? then agent.value else "null")
    case SwitchSession(id) => "sess:" + id
    case NewSession => "act:new"
    case RunTool(command) => "cmd:" + command
    case Ignore => ""
  }

  /** The value an action carries, if any. */
  function Payload(a: Action): Option<string>
  {
    match a
    case ShowPage(page) => Some(page)
    case ChooseModel(model) => Some(model)
    case ChooseAgent(agent) => Some(if agent.Some? then agent.value else "null")
    case SwitchSession(id) => Some(id)
    case RunTool(command) => Some(command)
    case _ => None
  }

  /** A button for `a` decodes back to `a`: its value has no colon, and an agent is not named `null`. */
  predicate Encodable(a: Action)
  {
    && (Payload(a).Some? ==> ':' !in Payload(a).value)
    && (a.ChooseAgent? && a.agent.Some? ==> a.agent.value != "null")
  }

  lemma PrefixHead(data: string, p: string, q: string)
    requires StartsWith(data, p) && |q| > 0 && |p| > 0 && p[0] != q[0]
    ensures !StartsWith(data, q)
  {
    assert data[0] == p[0];
  }

  /** A prefix common to both sides cancels. */
  lemma PrefixCancel(p: string, rest: string, q: string)
    ensures StartsWith(p + rest, p + q) <==> StartsWith(rest, q)
  {
    if |q| <= |rest| {
      assert (p + rest)[..|p| + |q|] == p + rest[..|q|];
      assert (p + rest[..|q|])[|p|..] == rest[..|q|];
      assert (p + q)[|p|..] == q;
    }
  }

  /** Two colon-free prefixes of `rest`, each ending where `rest` ends or a colon follows, are the same. */
  lemma SameField(rest: string, v: string, w: string)
    requires ':' !in v && ':' !in w
    requires StartsWith(rest, v) && (v == rest || (|v| < |rest| && rest[|v|] == ':'))
    requires StartsWith(rest, w) && (w == rest || (|w| < |rest| && rest[|w|] == ':'))
    ensures v == w
  {
    assert v == rest[..|v|] && w == rest[..|w|];
  }

  /** A colon-free prefix of `rest` followed by the end or a colon. */
  predicate FieldOf(rest: string, v: string)
  {
    ':' !in v && StartsWith(rest, v) && (v == rest || (|v| < |rest| && rest[|v|] == ':'))
  }

  /** The value after `name:` is the first field of the rest of the data. */
  lemma ValueIsField(name: string, rest: string)
    requires ':' !in name
    ensures StartsWith(name + ":" + rest, name + ":")
    ensures FieldOf(rest, Value(name + ":" + rest, name))
  {
    var pre := name + ":";
    var data := pre + rest;
    assert data[..|pre|] == pre;
    var w := Value(data, name);
    if data == pre + w {
      assert rest == w by {
        assert data[|pre|..] == rest;
        assert (pre + w)[|pre|..] == w;
      }
    } else {
      assert pre + w + ":" == pre + (w + ":");
      PrefixCancel(pre, rest, w + ":");
      assert rest[..|w|] == (w + ":")[..|w|];
    }
  }

  lemma DecodeAt(name: string, v: string, tail: string)
    requires ':' !in name && ':' !in v && (tail == "" || tail[0] == ':')
    ensures StartsWith(name + ":" + v + tail, name + ":")
    ensures Value(name + ":" + v + tail, name) == v
  {
    var rest := v + tail;
    assert name + ":" + v + tail == name + ":" + rest;
    ValueIsField(name, rest);
    assert FieldOf(rest, v) by {
      assert rest[..|v|] == v;
      if tail != "" {
        assert rest[|v|] == tail[0];
      }
    }
    SameField(rest, v, Value(name + ":" + rest, name));
  }

  lemma DecodeNav(v: string, tail: string)
    requires ':' !in v && (tail == "" || tail[0] == ':')
    ensures Decode("nav:" + v + tail) == ShowPage(v)
  {
    assert "nav:" + v + tail == "nav" + ":" + v + tail;
    DecodeAt("nav", v, tail);
  }

  lemma DecodeModel(v: string, tail: string)
    requires ':' !in v && (tail == "" || tail[0] == ':')
    ensures Decode("model:" + v + tail) == ChooseModel(v)
  {
    assert "model:" + v + tail == "model" + ":" + v + tail;
    DecodeAt("model", v, tail);
    PrefixHead("model:" + v + tail, "model:", "nav:");
  }

  lemma DecodeAgent(v: string, tail: string)
    requires ':' !in v && (tail == "" || tail[0] == ':')
    ensures Decode("agent:" + v + tail) == ChooseAgent(if v == "null" then None else Some(v))
  {
    assert "agent:" + v + tail == "agent" + ":" + v + tail;
    DecodeAt("agent", v, tail);
    PrefixHead("agent:" + v + tail, "agent:", "nav:");
    PrefixHead("agent:" + v + tail, "agent:", "model:");
  }

  lemma DecodeSess(v: string, tail: string)
    requires ':' !in v && (tail == "" || tail[0] == ':')
    ensures Decode("sess:" + v + tail) == SwitchSession(v)
  {
    var data := "sess:" + v + tail;
    assert "sess:" + v + tail == "sess" + ":" + v + tail;
    DecodeAt("sess", v, tail);
    PrefixHead(data, "sess:", "nav:");
    PrefixHead(data, "sess:", "model:");
    PrefixHead(data, "sess:", "agent:");
  }

  lemma DecodeCmd(v: string, tail: string)
    requires ':' !in v && (tail == "" || tail[0] == ':')
    ensures Decode("cmd:" + v + tail) == RunTool(v)
  {
    var data := "cmd:" + v + tail;
    assert "cmd:" + v + tail == "cmd" + ":" + v + tail;
    DecodeAt("cmd", v, tail);
    PrefixHead(data, "cmd:", "nav:");
    PrefixHead(data, "cmd:", "model:");
    PrefixHead(data, "cmd:", "agent:");
    PrefixHead(data, "cmd:", "sess:");
    assert data != "act:new" by {
      assert data[0] != "act:new"[0];
    }
  }

  lemma DecodeNew(data: string)
    requires data == "act:new"
    ensures Decode(data) == NewSession
  {
    PrefixHead(data, "a", "nav:");
    PrefixHead(data, "a", "model:");
    PrefixHead(data, "a", "sess:");
    assert !StartsWith(data, "agent:") by {
      assert data[1] == 'c' && "agent:"[1] == 'g';
    }
  }

  /** Decoding undoes encoding, also when the data goes on after a second colon. */
  lemma DecodeEncode(a: Action, tail: string)
    requires Encodable(a) && a != Ignore
    requires tail == "" || (tail[0] == ':' && a != NewSession)
    ensures Decode(Encode(a) + tail) == a
  {
    match a
    case ShowPage(page) => DecodeNav(page, tail);
    case ChooseModel(model) => DecodeModel(model, tail);
    case ChooseAgent(agent) => DecodeAgent(if agent.Some? then agent.value else "null", tail);
    case SwitchSession(id) => DecodeSess(id, tail);
    case NewSession => DecodeNew(Encode(a) + tail);
    case RunTool(command) => DecodeCmd(command, tail);
  }

  /**
   * Decoding keeps what it reads: any data that asks for something is the encoding of
   * that action, possibly followed by a second colon and text that is dropped.
   */
  lemma EncodeDecode(data: string)
    requires Decode(data) != Ignore
    ensures data == Encode(Decode(data)) || StartsWith(data, Encode(Decode(data)) + ":")
  {
    if StartsWith(data, "nav:") {
      assert Decode(data) == ShowPage(Value(data, "nav"));
      ValueAfter(data, "nav", "nav:");
    } else if StartsWith(data, "model:") {
      assert Decode(data) == ChooseModel(Value(data, "model"));
      ValueAfter(data, "model", "model:");
    } else if StartsWith(data, "agent:") {
      assert Encode(Decode(data)) == "agent:" + Value(data, "agent");
      ValueAfter(data, "agent", "agent:");
    } else if StartsWith(data, "sess:") {
      assert Decode(data) == SwitchSession(Value(data, "sess"));
      ValueAfter(data, "sess", "sess:");
    } else if data == "act:new" {
      assert Decode(data) == NewSession;
    } else {
      assert Decode(data) == RunTool(Value(data, "cmd"));
      ValueAfter(data, "cmd", "cmd:");
    }
  }

  /** `Value`'s promise with the route's prefix written as one literal. */
  lemma ValueAfter(data: string, name: string, prefix: string)
    requires ':' !in name && prefix == name + ":" && StartsWith(data, prefix)
    ensures data == prefix + Value(data, name) || StartsWith(data, prefix + Value(data, name) + ":")
  {
  }

  /** Data asks for nothing exactly when it matches none of the routes. */
  lemma DecodeIgnores(data: string)
    ensures Decode(data) == Ignore <==>
      && !StartsWith(data, "nav:") && !StartsWith(data, "model:") && !StartsWith(data, "agent:")
      && !StartsWith(data, "sess:") && data != "act:new" && !StartsWith(data, "cmd:")
  {
  }

  /** Every action but `Ignore` is encoded as data the router acts on. */
  lemma EncodeActs(a: Action)
    requires a != Ignore
    ensures Decode(Encode(a)) != Ignore
  {
    var d := Encode(a);
    match a
    case ShowPage(p) => assert d[..4] == "nav:";
    case ChooseModel(m) => assert d[..6] == "model:";
    case ChooseAgent(x) => assert d[..6] == "agent:";
    case SwitchSession(s) => assert d[..5] == "sess:";
    case NewSession => DecodeNew(d);
    case RunTool(c) => assert d[..4] == "cmd:";
  }

  /** An agent whose id is `null` cannot be chosen: its button clears the agent instead. */
  lemma AgentNamedNull()
    ensures Decode(Encode(ChooseAgent(Some("null")))) == ChooseAgent(None)
  {
    DecodeAgent("null", "");
    assert Encode(ChooseAgent(Some("null"))) == "agent:" + "null" + "";
  }

  /** The menu line for the model: the last `/` segment of the default model, `default` when that is empty or there is no model. */
  function ModelLabel(model: Option<string>): (r: string)
    ensures r == "default" || (model.Some? && r != "" && '/' !in r && EndsWith(model.value, r))
  {
    if model.None? then "default"
    else
      var last := LastField(model.value, '/');
      SplitLast(model.value, '/');
      if last == "" then "default" else last
  }

  /** A model without a slash shows whole. */
  lemma ModelLabelPlain(m: string)
    requires m != "" && '/' !in m
    ensures ModelLabel(Some(m)) == m
  {
    SplitNoSeparator(m, '/');
  }

  /** No model, an empty model and a model ending in a slash all show as `default`. */
  lemma ModelLabelDefault(model: Option<string>)
    requires model.None? || model.value == "" || model.value[|model.value| - 1] == '/'
    ensures ModelLabel(model) == "default"
  {
    if model.Some? && model.value != "" {
      var m := model.value;
      var last := LastField(m, '/');
      SplitLast(m, '/');
      assert last == "";
    }
  }

  /** A model written `provider/name` shows as `name`. */
  lemma ModelLabelOfPath(provider: string, name: string)
    requires name != "" && '/' !in name
    ensures ModelLabel(Some(provider + "/" + name)) == name
  {
    var s := provider + "/" + name;
    var last := LastField(s, '/');
    assert last == name by {
      SplitLast(s, '/');
      assert '/' !in last;
      assert s[|s| - |name|..] == name;
      assert s[|s| - |name| - 1] == '/';
      SameLastField(s, '/', last, name);
    }
  }

  /** The menu line for the agent: the default agent, `none` when it is falsy. */
  function AgentLabel(agent: Option<string>): (r: string)
    ensures Truthy(agent) ==> r == agent.value
    ensures !Truthy(agent) ==> r == "none"
  {
    if Truthy(agent) then agent.value else "none"
  }

  /** A button: its caption and the action its data encodes. */
  datatype Button = Button(caption: string, action: Action)

  function Data(b: Button): string
  {
    Encode(b.action)
  }

  datatype Menu = Menu(text: string, buttons: seq<Button>)

  const Back: Button := Button("🔙 Back", ShowPage("main"))
  const FlashModel: string := "google/antigravity-gemini-3-flash"
  const ProModel: string := "google/antigravity-gemini-3-pro"

  /** The label of a session button: the id cut to 20 characters, ticked when it is the chat's session. */
  function SessionLabel(id: string, current: string): (r: string)
    ensures id == current ==> r == "✅ " + Take(id, 20)
    ensures id != current ==> r == Take(id, 20)
  {
    if id == current then "✅ " + Take(id, 20) else Take(id, 20)
  }

  /** One button per listed session, at most five, each switching to that session. */
  function SessionButtons(listing: seq<string>, current: string): (r: seq<Button>)
    ensures |r| == if |listing| < 5 then |listing| else 5
    ensures forall k :: 0 <= k < |r| ==>
      r[k].action == SwitchSession(listing[k]) && r[k].caption == SessionLabel(listing[k], current)
  {
    var shown := if |listing| < 5 then listing else listing[..5];
    seq(|shown|, k requires 0 <= k < |shown| => Button(SessionLabel(shown[k], current), SwitchSession(shown[k])))
  }

  /** One button per enabled agent, labelled with its name, choosing its id. */
  function AgentButtons(agents: seq<Bridge.Agent>): (r: seq<Button>)
    ensures |r| == |agents|
    ensures forall k :: 0 <= k < |r| ==>
      r[k].action == ChooseAgent(Some(agents[k].id)) && r[k].caption == agents[k].name
  {
    seq(|agents|, k requires 0 <= k < |agents| => Button(agents[k].name, ChooseAgent(Some(agents[k].id))))
  }

  /** The pages `showMenu` draws; any other page name draws nothing. */
  datatype Page = MainPage | ModelsPage | AgentsPage | SessionsPage | ToolsPage | UnknownPage

  function PageOf(name: string): Page
  {
    if name == "main" then MainPage
    else if name == "models" then ModelsPage
    else if name == "agents" then AgentsPage
    else if name == "sessions" then SessionsPage
    else if name == "tools" then ToolsPage
    else UnknownPage
  }

  /** The text at the top of a page. */
  function PageText(core: Bridge.Core, chat: ChatId, page: Page): (r: string)
    ensures r == "" <==> page == UnknownPage
  {
    match page
    case MainPage =>
      "*🎮 Control Center*\nModel: `" + ModelLabel(core.config.defaultModel) + "`\nAgent: `"
        + AgentLabel(core.config.defaultAgent) + "`"
    case ModelsPage => "*🧠 Select Model*"
    case AgentsPage =>
      if Bridge.ListAgents(core.config.agents) == [] then
        "*🤖 Select Agent*\n\n⚠️ No agents found. Install oh-my-opencode to use agents."
      else "*🤖 Select Agent*"
    case SessionsPage => "*💬 Sessions*\nCurrent: `" + Sessions.GetSession(core.store.sessions, chat) + "`"
    case ToolsPage => "*🛠 System Tools*"
    case UnknownPage => ""
  }

  /** The buttons of a page, in keyboard order; `dir` is what `listSessions` reads. */
  const MainButtons: seq<Button> :=
    [Button("🧠 Models", ShowPage("models")), Button("🤖 Agents", ShowPage("agents")),
     Button("💬 Sessions", ShowPage("sessions")), Button("🛠 Tools", ShowPage("tools")),
     Button("📊 Stats", RunTool("stats"))]

  const ModelButtons: seq<Button> :=
    [Button("✨ Flash", ChooseModel(FlashModel)), Button("🧠 Pro", ChooseModel(ProModel)), Back]

  const ToolButtons: seq<Button> :=
    [Button("🩺 Doctor", RunTool("doctor")), Button("📦 Plugins", RunTool("plugins")),
     Button("🔑 Auth", RunTool("auth")), Button("⚙️ Config", RunTool("config")), Back]

  function PageButtons(core: Bridge.Core, chat: ChatId, page: Page, dir: Option<seq<Sessions.DirEntry>>): (r: seq<Button>)
    ensures forall b :: b in r ==> b.action != Ignore
  {
    match page
    case MainPage => MainButtons
    case ModelsPage => ModelButtons
    case AgentsPage =>
      var agents := Bridge.ListAgents(core.config.agents);
      if agents == [] then [Back]
      else AgentButtons(agents) + [Button("❌ No Agent", ChooseAgent(None)), Back]
    case SessionsPage =>
      [Button("🆕 New", NewSession)]
        + SessionButtons(Sessions.ListSessions(dir), Sessions.GetSession(core.store.sessions, chat)) + [Back]
    case ToolsPage => ToolButtons
    case UnknownPage => []
  }

  /** `showMenu`: the text and buttons of the named page. */
  function ShowMenu(core: Bridge.Core, chat: ChatId, name: string, dir: Option<seq<Sessions.DirEntry>>): (r: Menu)
    ensures r.text == "" <==> PageOf(name) == UnknownPage
    ensures PageOf(name) == UnknownPage ==> r.buttons == []
    ensures forall b :: b in r.buttons ==> b.action != Ignore
  {
    var page := PageOf(name);
    Menu(PageText(core, chat, page), PageButtons(core, chat, page, dir))
  }

  lemma DecodeButton(b: Button)
    requires Encodable(b.action) && b.action != Ignore
    ensures Decode(Data(b)) == b.action
  {
    DecodeEncode(b.action, "");
    assert Encode(b.action) + "" == Encode(b.action);
  }

  lemma MainButtonsEncodable()
    ensures forall b :: b in MainButtons ==> Encodable(b.action)
  {
    assert ':' !in "models" && ':' !in "agents" && ':' !in "sessions" && ':' !in "tools" && ':' !in "stats";
  }

  lemma ModelsButtonsEncodable()
    ensures forall b :: b in ModelButtons ==> Encodable(b.action)
  {
    ModelsColonFree();
  }

  lemma ModelsColonFree()
    ensures ':' !in FlashModel && ':' !in ProModel
  {
  }

  lemma ToolsButtonsEncodable()
    ensures forall b :: b in ToolButtons ==> Encodable(b.action)
  {
    assert ':' !in "doctor" && ':' !in "plugins" && ':' !in "auth" && ':' !in "config" && ':' !in "main";
  }

  /** The buttons of the main, models and tools pages all decode to the action they are drawn for. */
  lemma FixedButtonsDecode(core: Bridge.Core, chat: ChatId, page: Page, dir: Option<seq<Sessions.DirEntry>>)
    requires page == MainPage || page == ModelsPage || page == ToolsPage
    ensures forall b :: b in PageButtons(core, chat, page, dir) ==> Decode(Data(b)) == b.action
  {
    var bs := PageButtons(core, chat, page, dir);
    assert forall b :: b in bs ==> Encodable(b.action) by {
      if page == MainPage {
        assert bs == MainButtons;
        MainButtonsEncodable();
      } else if page == ModelsPage {
        assert bs == ModelButtons;
        ModelsButtonsEncodable();
      } else {
        assert bs == ToolButtons;
        ToolsButtonsEncodable();
      }
    }
    forall b | b in bs
      ensures Decode(Data(b)) == b.action
    {
      DecodeButton(b);
    }
  }

  /**
   * The buttons of the agents and sessions pages decode to the agent or session they show,
   * as long as its id has no colon and an agent is not called `null`.
   */
  lemma ListedButtonsDecode(core: Bridge.Core, chat: ChatId, page: Page, dir: Option<seq<Sessions.DirEntry>>, b: Button)
    requires b in PageButtons(core, chat, page, dir)
    requires Encodable(b.action)
    ensures Decode(Data(b)) == b.action
  {
    DecodeButton(b);
  }

  /** Every button of every menu asks for something. */
  lemma ButtonsAct(core: Bridge.Core, chat: ChatId, name: string, dir: Option<seq<Sessions.DirEntry>>, b: Button)
    requires b in ShowMenu(core, chat, name, dir).buttons
    ensures Decode(Data(b)) != Ignore
  {
    EncodeActs(b.action);
  }

  /** Wrap text in a Markdown code block. */
  function Fence(s: string): string
  {
    "```\n" + s + "\n```"
  }

  /** The text inside a code block, if `t` is one. */
  function Unfence(t: string): (r: Option<string>)
  {
    if |t| >= 8 && t[..4] == "```\n" && t[|t| - 4..] == "\n```" then Some(t[4..|t| - 4]) else None
  }

  lemma UnfenceFence(s: string)
    ensures Unfence(Fence(s)) == Some(s)
  {
    var t := Fence(s);
    assert t[..4] == "```\n" && t[|t| - 4..] == "\n```" && t[4..|t| - 4] == s;
  }

  lemma FenceUnfence(t: string)
    requires Unfence(t).Some?
    ensures Fence(Unfence(t).value) == t
  {
    assert t == t[..4] + t[4..|t| - 4] + t[|t| - 4..];
  }

  /** How much of the output a message shows. */
  const TextLimit: nat := 3500

  /** The adapter's state: the bridge, `messages` (the pending reply per chat) and the commands awaiting their result. */
  datatype Adapter = Adapter(core: Bridge.Core, pending: map<ChatId, MessageId>, commands: map<Supervisor.Handle, (ChatId, MessageId)>)

  /** A request to Telegram to replace the text of a message. */
  datatype Edit = Edit(chat: ChatId, msg: MessageId, text: string)

  /** `onStreamData`: edit the chat's pending reply, if there is one, to the last 3500 characters of the text. */
  function OnStreamData(ad: Adapter, chat: ChatId, text: string): (r: Option<Edit>)
    ensures r.Some? <==> chat in ad.pending
    ensures r.Some? ==> r.value.chat == chat && r.value.msg == ad.pending[chat]
    ensures r.Some? ==> Unfence(r.value.text).Some? && var shown := Unfence(r.value.text).value;
      EndsWith(text, shown) && |shown| == (if |text| < TextLimit then |text| else TextLimit)
  {
    if chat in ad.pending then
      var shown := TakeLast(text, TextLimit);
      UnfenceFence(shown);
      Some(Edit(chat, ad.pending[chat], Fence(shown)))
    else None
  }

  /** The end of `runCommand`: edit the command's reply to the first 3500 characters of the raw output. */
  function CommandResult(ad: Adapter, h: Supervisor.Handle, output: string): (r: Option<Edit>)
    ensures r.Some? <==> h in ad.commands
    ensures r.Some? ==> r.value.chat == ad.commands[h].0 && r.value.msg == ad.commands[h].1
    ensures r.Some? ==> Unfence(r.value.text).Some? && var shown := Unfence(r.value.text).value;
      StartsWith(output, shown) && |shown| == (if |output| < TextLimit then |output| else TextLimit)
  {
    if h in ad.commands then
      var shown := Take(output, TextLimit);
      UnfenceFence(shown);
      Some(Edit(ad.commands[h].0, ad.commands[h].1, Fence(shown)))
    else None
  }

  /** What the adapter does with an effect of the bridge: stream updates and command results become edits. */
  function Deliver(ad: Adapter, e: Supervisor.Effect): Option<Edit>
  {
    match e
    case Stream(chat, text) => OnStreamData(ad, chat, text)
    case Resolve(h, output, _) => CommandResult(ad, h, output)
    case Kill(_) => None
  }

  /**
   * A command's output streams into the chat's pending prompt reply, not into the
   * command's own "Running" message, which only gets the final output.
   */
  lemma CommandStreamsIntoPromptReply(ad: Adapter, h: Supervisor.Handle, chat: ChatId, text: string)
    requires h in ad.commands && ad.commands[h].0 == chat
    ensures Deliver(ad, Supervisor.Stream(chat, text)).Some? <==> chat in ad.pending
    ensures chat in ad.pending ==> Deliver(ad, Supervisor.Stream(chat, text)).value.msg == ad.pending[chat]
  {
  }

  /** How the adapter answers a button. */
  datatype Reaction =
    | Redraw(page: string, toast: Option<string>)
    | Started(command: string, h: Supervisor.Handle, effects: seq<Supervisor.Effect>)
    | Nothing

  /** The adapter with the bridge replaced. */
  function WithCore(ad: Adapter, core: Bridge.Core): Adapter
  {
    ad.(core := core)
  }

  /**
   * `handleCallback`: do what the button's data asks. `reply` is the message `runCommand`
   * posts before it starts the command; `stamp` and `now` stand for the clock and the
   * random source.
   */
  function HandleCallback(ad: Adapter, chat: ChatId, data: string, stamp: Sessions.Stamp, now: int, reply: MessageId): (r: (Adapter, Reaction))
    ensures r.0.pending == ad.pending
    ensures Decode(data) == Ignore ==> r == (ad, Nothing)
    ensures !Decode(data).RunTool? ==> r.0.commands == ad.commands && r.0.core.registry == ad.core.registry
  {
    match Decode(data)
    case ShowPage(page) => (ad, Redraw(page, None))
    case ChooseModel(model) => (WithCore(ad, Bridge.SetModel(ad.core, model)), Redraw("main", Some("Model updated")))
    case ChooseAgent(agent) =>
      (WithCore(ad, Bridge.SetAgent(ad.core, agent)),
       Redraw("main", Some("Agent: " + (if agent.Some? then agent.value else "null"))))
    case SwitchSession(id) =>
      var store := ad.core.store.(sessions := ad.core.store.sessions[chat := id]);
      (WithCore(ad, ad.core.(store := store)), Redraw("sessions", Some("Session switched")))
    case NewSession =>
      var store := Sessions.CreateSession(ad.core.store, chat, stamp).0;
      (WithCore(ad, ad.core.(store := store)), Redraw("sessions", Some("New session created")))
    case RunTool(command) =>
      var (core, h, effects) := Bridge.RunCommand(ad.core, chat, command, now, true);
      (Adapter(core, ad.pending, ad.commands[h := (chat, reply)]), Started(command, h, effects))
    case Ignore => (ad, Nothing)
  }

  /** Data that matches no route changes nothing and draws nothing. */
  lemma CallbackIgnored(ad: Adapter, chat: ChatId, data: string, stamp: Sessions.Stamp, now: int, reply: MessageId)
    requires Decode(data) == Ignore
    ensures HandleCallback(ad, chat, data, stamp, now, reply) == (ad, Nothing)
  {
  }

  /** A model button sets the default model, and the main menu then shows its last segment. */
  lemma ChooseModelShows(ad: Adapter, chat: ChatId, provider: string, name: string, tail: string,
                         stamp: Sessions.Stamp, now: int, reply: MessageId)
    requires ':' !in provider && ':' !in name && '/' !in name && name != ""
    requires tail == "" || tail[0] == ':'
    ensures var (after, reaction) := HandleCallback(ad, chat, "model:" + (provider + "/" + name) + tail, stamp, now, reply);
      && after.core.config.defaultModel == Some(provider + "/" + name)
      && ModelLabel(after.core.config.defaultModel) == name
      && reaction == Redraw("main", Some("Model updated"))
  {
    assert ':' !in provider + "/" + name;
    DecodeEncode(ChooseModel(provider + "/" + name), tail);
    ModelLabelOfPath(provider, name);
  }

  /** The `agent:null` button clears the agent, and the main menu then shows `none`. */
  lemma ClearAgentShowsNone(ad: Adapter, chat: ChatId, data: string, stamp: Sessions.Stamp, now: int, reply: MessageId)
    requires data == "agent:null"
    ensures var (after, reaction) := HandleCallback(ad, chat, data, stamp, now, reply);
      && after.core.config.defaultAgent == None
      && AgentLabel(after.core.config.defaultAgent) == "none"
      && reaction == Redraw("main", Some("Agent: null"))
  {
    DecodeClearAgent();
    CallbackClearAgent(ad, chat, data, stamp, now, reply);
  }

  lemma CallbackClearAgent(ad: Adapter, chat: ChatId, data: string, stamp: Sessions.Stamp, now: int, reply: MessageId)
    requires Decode(data) == ChooseAgent(None)
    ensures HandleCallback(ad, chat, data, stamp, now, reply).0.core.config.defaultAgent == None
    ensures HandleCallback(ad, chat, data, stamp, now, reply).1 == Redraw("main", Some("Agent: null"))
  {
    CallbackAgent(ad, chat, data, None, stamp, now, reply);
    assert "Agent: " + "null" == "Agent: null";
  }

  /** `agent:null` decodes to clearing the agent. */
  lemma DecodeClearAgent()
    ensures Decode("agent:null") == ChooseAgent(None)
  {
    DecodeAgent("null", "");
    assert "agent:null" == "agent:" + "null" + "";
  }

  lemma CallbackAgent(ad: Adapter, chat: ChatId, data: string, agent: Option<string>,
                      stamp: Sessions.Stamp, now: int, reply: MessageId)
    requires Decode(data) == ChooseAgent(agent)
    ensures HandleCallback(ad, chat, data, stamp, now, reply)
      == (WithCore(ad, Bridge.SetAgent(ad.core, agent)),
          Redraw("main", Some("Agent: " + (if agent.Some? then agent.value else "null"))))
  {
  }

  /**
   * A session button points this chat, and only this chat, at the session; an empty id
   * sends the chat back to its derived session. Nothing else of the store changes.
   */
  lemma SwitchSessionOnlyThisChat(ad: Adapter, chat: ChatId, id: string, stamp: Sessions.Stamp, now: int, reply: MessageId)
    requires ':' !in id
    ensures var after := HandleCallback(ad, chat, "sess:" + id, stamp, now, reply).0;
      && Sessions.GetSession(after.core.store.sessions, chat) == (if id != "" then id else Sessions.FallbackSession(chat))
      && (forall c :: c != chat ==> Sessions.GetSession(after.core.store.sessions, c) == Sessions.GetSession(ad.core.store.sessions, c))
      && after.core.store.files == ad.core.store.files
      && after.core.registry == ad.core.registry && after.pending == ad.pending
  {
    DecodeEncode(SwitchSession(id), "");
    assert Encode(SwitchSession(id)) + "" == "sess:" + id;
  }

  /** `act:new` creates a session for the chat, which the chat then uses. */
  lemma NewSessionButton(ad: Adapter, chat: ChatId, data: string, stamp: Sessions.Stamp, now: int, reply: MessageId)
    requires data == "act:new"
    ensures var after := HandleCallback(ad, chat, data, stamp, now, reply).0;
      && Sessions.GetSession(after.core.store.sessions, chat) == Sessions.NewSessionId(stamp.idTime, stamp.rand)
      && StartsWith(Sessions.GetSession(after.core.store.sessions, chat), Sessions.SessionPrefix)
  {
    DecodeNew(data);
    var id := Sessions.NewSessionId(stamp.idTime, stamp.rand);
    assert id[..4] == Sessions.SessionPrefix;
  }

  /** A tool button runs exactly that command for the chat and remembers where to put its result. */
  lemma ToolButtonRuns(ad: Adapter, chat: ChatId, command: string, stamp: Sessions.Stamp, now: int, reply: MessageId)
    requires ':' !in command
    ensures var (after, reaction) := HandleCallback(ad, chat, "cmd:" + command, stamp, now, reply);
      && reaction.Started? && reaction.command == command
      && after.core.registry.procs[reaction.h].args == [command]
      && after.core.registry.active[chat] == reaction.h
      && after.commands[reaction.h] == (chat, reply)
  {
    DecodeEncode(RunTool(command), "");
    assert Encode(RunTool(command)) + "" == "cmd:" + command;
  }

  /** The `/new` command: create a session for the chat and reply with its id. */
  function NewCommand(ad: Adapter, chat: ChatId, stamp: Sessions.Stamp): (r: (Adapter, string))
    ensures var id := Sessions.GetSession(r.0.core.store.sessions, chat);
      && id == Sessions.NewSessionId(stamp.idTime, stamp.rand)
      && r.1 == "🆕 New session: `" + id + "`"
    ensures forall c :: c != chat ==> Sessions.GetSession(r.0.core.store.sessions, c) == Sessions.GetSession(ad.core.store.sessions, c)
    ensures r.0.core.registry == ad.core.registry && r.0.pending == ad.pending
  {
    var (store, id) := Sessions.CreateSession(ad.core.store, chat, stamp);
    (WithCore(ad, ad.core.(store := store)), "🆕 New session: `" + id + "`")
  }

  /**
   * `handleMessage`: trim the text; ignore it when it starts with `/`; otherwise record
   * `reply` (the "Processing" message) as the chat's pending reply and execute the
   * trimmed text with default options.
   */
  function HandleMessage(ad: Adapter, chat: ChatId, text: string, reply: MessageId, stamp: Sessions.Stamp, now: int): (r: (Adapter, Option<(Supervisor.Handle, seq<Supervisor.Effect>)>))
    ensures r.1.None? <==> StartsWith(Trim(text), "/")
    ensures r.1.None? ==> r.0 == ad
    ensures r.0.commands == ad.commands && r.0.core.config == ad.core.config
    ensures r.1.Some? ==>
      && r.0.pending == ad.pending[chat := reply]
      && chat in r.0.core.registry.active && r.0.core.registry.active[chat] == r.1.value.0
  {
    var prompt := Trim(text);
    if StartsWith(prompt, "/") then (ad, None)
    else
      var (core, h, effects) := Bridge.Execute(ad.core, chat, prompt, Bridge.NoOptions, stamp, now, true);
      (Adapter(core, ad.pending[chat := reply], ad.commands), Some((h, effects)))
  }

  /**
   * A message runs exactly when its trimmed text does not start with `/`; the run's prompt
   * is the trimmed text, its session the chat's, and the reply becomes the chat's pending
   * message. A slash command changes nothing.
   */
  lemma MessageRunsUnlessSlash(ad: Adapter, chat: ChatId, text: string, reply: MessageId, stamp: Sessions.Stamp, now: int)
    ensures var (after, started) := HandleMessage(ad, chat, text, reply, stamp, now);
      && (started.None? <==> StartsWith(Trim(text), "/"))
      && (started.None? ==> after == ad)
      && (started.Some? ==>
            && after.pending == ad.pending[chat := reply]
            && Bridge.ParseRunArgs(after.core.registry.procs[started.value.0].args).Some?
            && Bridge.ParseRunArgs(after.core.registry.procs[started.value.0].args).value.prompt == Trim(text)
            && Bridge.ParseRunArgs(after.core.registry.procs[started.value.0].args).value.session
                 == Some(Sessions.GetSession(ad.core.store.sessions, chat)))
  {
    if !StartsWith(Trim(text), "/") {
      Bridge.ExecuteArgs(ad.core, chat, Trim(text), Bridge.NoOptions, stamp, now, true);
      Bridge.ExecuteSessionArg(ad.core, chat, Trim(text), Bridge.NoOptions, stamp, now, true);
    }
  }
}

=== FILE: wrappers.dfy ===
/** Optional values, standing for JavaScript's `null`/`undefined` next to a real value. */
module Wrappers {

  datatype Option<+T> = None | Some(value: T)

  /** JavaScript truthiness of an optional string: absent and empty are both falsy. */
  predicate Truthy(o: Option<string>)
  {
    o.Some? && o.value != ""
  }

  /** The value of `a || b` for two optional strings. */
  function Or(a: Option<string>, b: Option<string>): (r: Option<string>)
    ensures Truthy(a) ==> r == a
    ensures !Truthy(a) ==> r == b
    ensures Truthy(r) <==> Truthy(a) || Truthy(b)
  {
    if Truthy(a) then a else b
  }
}
